=== FILE: README.md ===
# useful-github-scripts, modelled in Dafny

This project models the decision and reshaping logic of four GitHub administration scripts:

- **create-secrets** provisions organization and repository secrets from a CSV file.
  - Each row is stripped of spaces and routed by level, access and type to one of six upsert builders: Actions or Dependabot, times organization-scoped, organization-wide or repository.
  - The row's value is sealed under the matching public key.
  - The HTTP status of the upsert becomes a console line.
- **export-secrets** builds the inventory report of an organization's Actions, Dependabot and Codespaces secrets. It produces organization-level rows by visibility, then the repository-level rows.
- **enterprise-network-graph** builds the enterprise report. For every organization and repository it records:
  - the last commit's author;
  - the branch count, where a falsy count becomes `[]`;
  - the forks, gathered over the pages of the fork listing, with each fork's own forks.
- **migrations** writes the user mapping CSV. It reads the members of a migration archive whose name contains `users_` and writes one `login,name,email,url` row per user. The email is the address of the last primary email entry.

Every network answer is an oracle: a function value inside a datatype.
- `Provisioning.Service` holds the key fetches and the upsert status.
- `SecretsReport.Listings` holds the REST and GraphQL listings.
- `ForkNetwork.Enterprise` holds the listings, commits, branch counts, fork pages and child forks.

Sealed-box encryption is the uninterpreted parameter `seal(publicKey, plaintext)`. So the model tracks which key sealed a value, not the ciphertext. The environment variables (hostname, token, organization) are explicit parameters.

Modules:
- `Wrappers` holds `Option` and `Result`.
- `Text` holds the Python string operations the scripts use: `replace(c, "")`, `split`, `str(n)`, `int(s)` and `p in s`. Each comes with a partner: `split` with its inverse `Join`, `str` with `int`, and the substring test with its specification.
- `Http` holds the base URL, the auth header, JSON bodies and requests.
- `SecretsApi` covers `apis/actions.py` and `apis/dependabot.py` as one module over `Kind`.
- `Provisioning` covers the main loop of `create_secrets_with_api.py`.
- `SecretsReport` covers `get_all_secrets.py`.
- `ForkNetwork` covers `enterprise_repo_networks.py`.
- `ArchiveUsers` covers `get-users-from-archive.py`.

Two behaviours of the code shape the model:

- **An uncaught exception ends the run.** Nothing catches the `KeyError` of a key response without `key_id`, or the `ValueError` of `int("abc")`. The `except` clauses name only `HTTPError`, which `requests` does not raise unless asked. So such a row ends the whole run, and the rows after it are not processed. `Provisioning.Failure` names these exceptions, and a `Crash` effect stops `ProcessRows`.
- **Every fork page is merged.** `requests` stores each parsed Link entry as a dict holding both the `url` and the `rel`. So `links.get("next") != links.get("last")` holds whenever either link exists. With GitHub's links, where the last page carries neither, the loop follows `next` to the end and merges every page, the last one included (`ForkNetwork.FollowMergesAllPages`). A later page whose fetch raises `RestClientError` is caught by `get_fork_list`, which then returns `None` (`ForkNetwork.FollowStopsAtFailedPage`, `ForkNetwork.ForkListOfGitHubListing`).

The report quirks of `get_all_secrets.py` are reproduced as written, because they are what the report contains:
- A `private` secret is judged on the last repository listed only. The filter sits after the loop that assigns its variables.
- The `private` filter accepts PRIVATE/INTERNAL for Actions but PUBLIC/INTERNAL for Dependabot and Codespaces.
- A `selected` Dependabot secret lists its repositories through the Actions lookup.

An empty repository list under a `private` secret leaves those variables unassigned. That `UnboundLocalError` is the value `UnboundPrivateRepo`.

## Model

| member | source | states |
|---|---|---|
| Text.RemoveAll | create-secrets/create_secrets_with_api.py:93-97 | `replace(" ", "")` leaves no space, keeps only characters of the input, and shortens it by exactly the number of spaces |
| Text.RemoveAllIdentity | create-secrets/create_secrets_with_api.py:93-97 | a string without the character is returned unchanged |
| Text.RemoveAllAppend | create-secrets/create_secrets_with_api.py:93-97 | removal distributes over concatenation, so kept characters stay in order |
| Text.RemoveAllIdempotent | create-secrets/create_secrets_with_api.py:93-97 | stripping spaces twice equals stripping once |
| Text.Split | create-secrets/apis/dependabot.py:53 | `split(";")` yields one more piece than there are `;`, and no piece contains `;` |
| Text.SplitThenJoin | create-secrets/apis/dependabot.py:53 | joining the pieces of a split with the delimiter gives the original string back |
| Text.SplitWithoutDelimiter | create-secrets/apis/dependabot.py:53 | a string without the delimiter splits into itself alone |
| Text.SplitAfterPiece | create-secrets/apis/dependabot.py:53 | splitting `piece + d + rest` gives `piece` followed by the pieces of `rest` |
| Text.JoinThenSplit | create-secrets/apis/dependabot.py:53 | splitting the join of delimiter-free pieces gives the same pieces back |
| Text.NatToString | create-secrets/create_secrets_with_api.py:220 | `str(n)` is a non-empty digit string without a leading zero (except `"0"`) |
| Text.ParseNat | create-secrets/apis/actions.py:81 | the model's `int(s)` succeeds exactly on non-empty strings of the ASCII digits `0`-`9` (a restriction of Python's `int`, see "Left out") |
| Text.ParseNatToString | create-secrets/apis/actions.py:81 | parsing `str(n)` gives back `n` |
| Text.NatToStringInjective | create-secrets/create_secrets_with_api.py:220 | distinct status codes print differently |
| Text.Occurs | migrations/get-users-from-archive.py:19 | the scanning substring test is true exactly when the pattern occurs at some position |
| Http.ApiUrl | create-secrets/create_secrets_with_api.py:22-31 | the public API URL without a hostname, `https://` + hostname + `/api/v3` with one |
| Http.ApiUrlInjective | create-secrets/create_secrets_with_api.py:22-31 | different hostname settings never give the same base URL |
| Http.AuthHeader | create-secrets/create_secrets_with_api.py:34-42 | a header exists exactly when a token is set; it is named `Authorization` and its length is `Bearer ` plus the token |
| Http.BearerTokenOfAuthHeader | create-secrets/create_secrets_with_api.py:34-42 | the header carries exactly the configured token after `Bearer `, and nothing when there is none |
| Http.Keys | create-secrets/apis/actions.py:53-57 | the keys of a JSON body, one per member, in insertion order |
| Http.Lookup | create-secrets/apis/actions.py:53-57 | a key lookup finds nothing exactly when the key is absent |
| SecretsApi.OrgPublicKeyUrl | create-secrets/apis/actions.py:19 | the organization key URL is exactly `{api}/orgs/{org}/{actions or dependabot}/secrets/public-key`, so it starts with the base URL and ends with `/public-key` |
| SecretsApi.RepoPublicKeyUrl | create-secrets/apis/actions.py:31-33 | the repository key URL is exactly `{api}/repos/{org}/{repo}/{actions or dependabot}/secrets/public-key`, so it starts with the base URL and ends with `/public-key` |
| SecretsApi.OrgKeyUrlsSeparateKinds | create-secrets/apis/dependabot.py:18 | the Actions and Dependabot organization key endpoints never coincide |
| SecretsApi.OrgAndRepoKeyUrlsDiffer | create-secrets/apis/dependabot.py:30-32 | an organization key endpoint is never a repository key endpoint |
| SecretsApi.UpdateOrgSecret | create-secrets/apis/actions.py:40-65 | a PUT to `/orgs/{org}/{kind}/secrets/{name}` whose body has exactly the keys encrypted_value, key_id, visibility, each equal to its argument |
| SecretsApi.ParseIds | create-secrets/apis/actions.py:81 | `map(int, pieces)` succeeds exactly when every piece parses, keeps order and length, and otherwise reports the first piece that does not parse |
| SecretsApi.SelectedRepositoryIds | create-secrets/apis/actions.py:81 | the ids are a JSON array with one entry per `;`-piece: for Dependabot each piece as a string, which never fails; for Actions each piece's integer, failing exactly when some piece does not parse, with that piece as the error |
| SecretsApi.UpdateOrgSecretScoped | create-secrets/apis/actions.py:67-95 | same URL as the unscoped upsert, four keys with `selected_repository_ids` last, and no request when an Actions id does not parse; Dependabot never fails |
| SecretsApi.UpdateRepoSecret | create-secrets/apis/dependabot.py:96-117 | a PUT to `/repos/{org}/{repo}/{kind}/secrets/{name}` whose body is exactly encrypted_value and key_id |
| SecretsApi.ActionsIdsRoundTrip | create-secrets/apis/actions.py:81 | ids written with `str` and joined by `;` parse back to the same ids in order |
| SecretsApi.StringsOfStringArray | create-secrets/apis/dependabot.py:53 | reading the strings back from the JSON array gives the pieces |
| SecretsApi.DependabotIdsRoundTrip | create-secrets/apis/dependabot.py:53-59 | Dependabot ids are the `;`-pieces as strings: none holds `;`, one more than the `;` count, and joining them gives the field back |
| SecretsApi.ActionsExample | create-secrets/apis/actions.py:81 | `"1;2;3"` becomes `[1, 2, 3]` |
| SecretsApi.DependabotExample | create-secrets/apis/dependabot.py:53 | `"repoA;repoB"` becomes `["repoA", "repoB"]` |
| SecretsApi.DependabotEmptyExample | create-secrets/apis/dependabot.py:53 | an empty field gives `[""]`, not an empty list |
| Provisioning.Normalise | create-secrets/create_secrets_with_api.py:93-99 | each of the five normalised columns is its original with every space removed, so it holds no space; the repository columns pass unchanged |
| Provisioning.NormaliseFixesSpaceFreeRows | create-secrets/create_secrets_with_api.py:93-99 | a row without spaces is already normal, so normalisation is idempotent |
| Provisioning.KindOf | create-secrets/create_secrets_with_api.py:112 | only the exact type `Action` selects Actions; every other type goes to Dependabot |
| Provisioning.OrganizationStep | create-secrets/create_secrets_with_api.py:102-154 | an organization row fetches no key; it PUTs to its kind's organization URL with the value sealed under that kind's organization key and that key's id; `selected` uses the four-key scoped body and fails only on an Actions id that does not parse; other access uses the three-key body |
| Provisioning.RepositoryStep | create-secrets/create_secrets_with_api.py:156-200 | a repository row fetches the Actions then the Dependabot repository key; it PUTs only when both exist; the value is sealed under the repository key of the row's kind and sent with that key's id; a missing key ends the run |
| Provisioning.Dispatch | create-secrets/create_secrets_with_api.py:110-203 | no call exactly when the normalised level is neither `Organization` nor `Repository`; only repository rows fetch keys, and fetches are GETs; a repository row PUTs exactly when both of its repository keys exist; a `selected` organization row PUTs exactly when the RepositoryID column gives valid ids for its kind, and then sends those ids as `selected_repository_ids`; an organization row's PUT goes to the organization URL of the row's kind and name, sealed under the organization key of that kind with its id, with the body keys its access calls for (always a PUT unless access is `selected`); a repository row's PUT goes to the repository URL of the row's kind, repository and name, sealed under the fetched repository key of that kind with its id, with exactly `encrypted_value` and `key_id` |
| Provisioning.Classify | create-secrets/create_secrets_with_api.py:209-221 | 201 is created, 204 is updated, and every other code is a failure carrying that code |
| Provisioning.StatusLine | create-secrets/create_secrets_with_api.py:206-222 | 201 prints "Successfully created a new value for" and the name, 204 "Successfully updated an existing value for" and the name, any other code the failure message with the name and `str` of the code |
| Provisioning.StatusLineReportsCode | create-secrets/create_secrets_with_api.py:209-222 | created and updated lines name the secret; a failure line ends with digits that parse back to the status code |
| Provisioning.CountPutsAppend | create-secrets/create_secrets_with_api.py:91-222 | the PUT count of a concatenation is the sum of the counts |
| Provisioning.StepRequests | create-secrets/create_secrets_with_api.py:110-203 | a row's requests are its key fetches followed by its upsert, if it has one |
| Provisioning.RowLine | create-secrets/create_secrets_with_api.py:200-222 | a routed row that upserts prints the status line of that upsert's own response; a row with an unknown level prints its issue line |
| Provisioning.PerRowRequests | create-secrets/create_secrets_with_api.py:91-203 | block `i` holds the requests of row `i` |
| Provisioning.ProcessRows | create-secrets/create_secrets_with_api.py:91-222 | corrected loop: at most one line per row; a run without an exception prints exactly one line per row and issues exactly one PUT per routed row; `result` is never read unbound |
| Provisioning.FirstRowPrefix | create-secrets/create_secrets_with_api.py:91-222 | a row that does not crash puts its requests and line ahead of those of the rows after it |
| Provisioning.ProcessRowsLines | create-secrets/create_secrets_with_api.py:91-222 | line `i` of a run is the line of row `i`: the status of that row's own upsert response, or its issue line |
| Provisioning.ProcessRowsStopsAtFirstCrash | create-secrets/create_secrets_with_api.py:91-222 | a run completes exactly when no row crashes; otherwise it stops at the first row that crashes, with that row's exception, after the lines of the rows before it |
| Provisioning.CompletedRunRequests | create-secrets/create_secrets_with_api.py:91-222 | a completed run's requests are each row's key fetches and upsert, row after row |
| Provisioning.StoppedRunRequests | create-secrets/create_secrets_with_api.py:91-222 | a run that stops early issues the requests of the rows before the crashing row, then that row's key fetches |
| Provisioning.JoinLines | create-secrets/create_secrets_with_api.py:91-222 | the first row's line followed by lines matching the later rows matches all rows |
| Provisioning.JoinNoCrash | create-secrets/create_secrets_with_api.py:91-222 | with a first row that does not crash, no row of a prefix crashes exactly when none after the first does |
| Provisioning.JoinRequests | create-secrets/create_secrets_with_api.py:91-203 | the requests of a prefix of the rows are the first row's followed by those of the rest of the prefix |
| Provisioning.FetchedOrgKeys | create-secrets/create_secrets_with_api.py:73-85 | the organization keys exist exactly when both key responses carry one, and the Actions and Dependabot keys are those fetched from the URL of their own kind |
| Provisioning.Provision | create-secrets/create_secrets_with_api.py:70-222 | the Actions organization key is fetched first, then the Dependabot one; a missing key ends the run before any row, with exactly the key fetches made so far as requests; otherwise the run is the corrected row loop (`ProcessRows`) under the fetched keys, with line `i` the line of row `i`; without an exception there is one line per row and one PUT per routed row. The loop as written prints a second, stale status line after an unknown level: see `Provisioning.ProcessRowsAsWritten` |
| Provisioning.OrgRowSealedUnderFetchedKey | create-secrets/create_secrets_with_api.py:73-130 | in a run, an organization row's PUT is sealed under the organization key of its own kind as fetched at the start, and carries that key's id |
| Provisioning.InvalidLevelIssuesNoCall | create-secrets/create_secrets_with_api.py:202-203 | corrected loop: a row with an unknown level adds no request and prints only the issue line about itself |
| Provisioning.ProcessRowsAsWritten | create-secrets/create_secrets_with_api.py:202-222 | as written: at most two lines per row; the unbound `result` arises only when no upsert has run yet and the first row has an unknown level, after its issue line and with no request made |
| Provisioning.StaleStatusReported | create-secrets/create_secrets_with_api.py:202-222 | as written, an upsert answered 201 followed by an unknown level prints "created" for the second secret; the corrected loop prints only the issue line |
| Provisioning.AsWrittenStaleTail | create-secrets/create_secrets_with_api.py:202-222 | as written, an unknown level after a response prints the issue line and then that earlier response's status |
| Provisioning.AsWrittenRepeatsStatus | create-secrets/create_secrets_with_api.py:202-222 | as written, a 201 upsert followed by an unknown level makes one request and prints "created" for both secrets |
| Provisioning.CorrectedLoopSkipsStaleStatus | create-secrets/create_secrets_with_api.py:202-222 | the corrected loop on the same rows makes one request and prints only the issue line for the second secret |
| Provisioning.FirstRowInvalidLevelCrashes | create-secrets/create_secrets_with_api.py:202-209 | as written, an unknown level on the first row ends the run with an unbound `result` |
| SecretsReport.SecretRow | export-secrets/get_all_secrets.py:226-235 | every row has the six header columns, starting with the level and the kind |
| SecretsReport.ScopedLookup | export-secrets/get_all_secrets.py:275 | a selected secret's repositories come from the Actions lookup for Dependabot, and from its own kind otherwise |
| SecretsReport.SelectedRows | export-secrets/get_all_secrets.py:220-235 | one row per selected repository, in order, with its name and id |
| SecretsReport.OrgSecretRows | export-secrets/get_all_secrets.py:217-266 | every row carries the secret's name and visibility; `selected` gives one row per scoped repository of the kind's lookup, row `i` holding repository `i`'s name and id; `private` gives at most one row, judged by the kind's filter on the last repository, and fails exactly on an empty repository list; any other visibility gives one row ending `all_repositories`, `NA` |
| SecretsReport.OrgBlock | export-secrets/get_all_secrets.py:271-320 | an organization block succeeds exactly when every secret's rows do, and is then those rows, secret after secret in listing order; all are organization rows of its kind; a failure is some secret's failure |
| SecretsReport.FlattenLocates | export-secrets/get_all_secrets.py:214-426 | row `i` of block `j` sits in the report right after the rows of the blocks before it |
| SecretsReport.RepoKindRows | export-secrets/get_all_secrets.py:382-396 | one `(Repository, kind, name, repo, repo name, databaseId)` row per repository secret, and none for a failed listing |
| SecretsReport.RepoBlock | export-secrets/get_all_secrets.py:378-426 | repository after repository in listing order, each with its Action, Dependabot, then Codespaces rows; every row is a six-column repository-level row with access `repo` |
| SecretsReport.Report | export-secrets/get_all_secrets.py:202-442 | the rows are every Action organization secret's rows, then every Dependabot's, then every Codespaces', in listing order, then each repository's rows; every row has the header's six columns and the blocks are rank ordered; the report fails exactly when there are no repositories and some kind has a `private` secret |
| SecretsReport.ReportIsRankOrdered | export-secrets/get_all_secrets.py:214-426 | concatenating the three organization blocks and the repository rows keeps the block order |
| SecretsReport.DependabotSelectedUsesActionsLookup | export-secrets/get_all_secrets.py:274-289 | a `selected` Dependabot secret lists exactly the repositories of the Actions lookup |
| SecretsReport.PrivateJudgedOnLastRepo | export-secrets/get_all_secrets.py:236-255 | two listings that agree on the last repository give a `private` secret the same rows |
| SecretsReport.PrivateFilterByKind | export-secrets/get_all_secrets.py:242-245 | INTERNAL always passes; PRIVATE passes only for Actions and PUBLIC only for the other kinds |
| ForkNetwork.CommitsUrl | enterprise-network-graph/enterprise_repo_networks.py:73-78 | the commits URL is the base URL of the hostname rule followed by `/repos/{org}/{name}/commits` |
| ForkNetwork.LastCommitOf | enterprise-network-graph/enterprise_repo_networks.py:65-90 | no token raises; a falsy response gives `[]`; a truthy one gives the first commit's author and fails on an empty listing |
| ForkNetwork.ChildRecords | enterprise-network-graph/enterprise_repo_networks.py:155-167 | one four-field record per child fork, in order, copied from the entry |
| ForkNetwork.ForkRecords | enterprise-network-graph/enterprise_repo_networks.py:124-167 | one record per fork, in order, with name, full name, owner login and count; children only for a positive count and a truthy child response, and then exactly those children |
| ForkNetwork.Follow | enterprise-network-graph/enterprise_repo_networks.py:109-123 | what is gathered starts with the current page's entries; a page without `next` and `last` is returned alone; only a page whose fetch failed gives `PageFetchFailed`; a page with `last` but no `next` fails |
| ForkNetwork.CollectForks | enterprise-network-graph/enterprise_repo_networks.py:118-123 | the pagination loop gathers what following the links from the first page gathers |
| ForkNetwork.FollowMergesAllPages | enterprise-network-graph/enterprise_repo_networks.py:118-123 | with GitHub's next/last links and every page fetched, every page from the current one to the last is merged, in page order |
| ForkNetwork.FollowStopsAtFailedPage | enterprise-network-graph/enterprise_repo_networks.py:118-121 | with GitHub's links, a later page whose fetch raises ends the loop with that error |
| ForkNetwork.SinglePageFetchesNothing | enterprise-network-graph/enterprise_repo_networks.py:118-123 | a single page is returned as it is, with nothing more fetched |
| ForkNetwork.ForkList | enterprise-network-graph/enterprise_repo_networks.py:105-170 | a failed initial listing or a failed later page gives `None`; otherwise the records of exactly the gathered forks, or a pagination error that is not caught |
| ForkNetwork.ForkListOfGitHubListing | enterprise-network-graph/enterprise_repo_networks.py:105-170 | with GitHub's links, the fork list holds the records of every page's entries when all pages were fetched, and is `None` when a later page's fetch failed |
| ForkNetwork.NumBranches | enterprise-network-graph/enterprise_repo_networks.py:191-193 | a zero or missing branch count becomes `[]`, and any other count is kept |
| ForkNetwork.RepoEntryOf | enterprise-network-graph/enterprise_repo_networks.py:187-203 | a repository entry copies name and update time, holds the last commit lookup's result and the fork list, and coerces the branch count; it succeeds exactly when the commit lookup and the fork listing do |
| ForkNetwork.RepoEntries | enterprise-network-graph/enterprise_repo_networks.py:187-203 | entry `j` is the entry of repository `j`, in order; it succeeds exactly when every repository's entry does; without a token any repository raises |
| ForkNetwork.OrgEntries | enterprise-network-graph/enterprise_repo_networks.py:183-203 | succeeds exactly when every organization's repository entries do; one entry per organization, in order, named by its login and holding its repositories' entries |
| ForkNetwork.GenerateReport | enterprise-network-graph/enterprise_repo_networks.py:173-203 | the report is built exactly when every organization's repository entries are (no commit lookup raises and no fork pagination error escapes); it has one entry per organization, in order, each holding its repositories' entries in order; without a token it fails once any repository exists |
| ArchiveUsers.PrimaryAddress | migrations/get-users-from-archive.py:24-27 | the email is the address of the last primary entry, or `""` when no entry is primary |
| ArchiveUsers.UserRow | migrations/get-users-from-archive.py:22-29 | a row has the header's four columns: login, name and url copied, and the primary address |
| ArchiveUsers.MappingRows | migrations/get-users-from-archive.py:18-29 | one four-column row per user of a `users_` member |
| ArchiveUsers.UserRows | migrations/get-users-from-archive.py:21-29 | one row per user, in array order |
| ArchiveUsers.SkipsOtherMembers | migrations/get-users-from-archive.py:19 | a member whose name lacks `users_` contributes no row |
| ArchiveUsers.UsersAppearInOrder | migrations/get-users-from-archive.py:18-29 | user `j` of member `k` is the row after all rows of earlier members plus `j`, so rows are in member order, then array order |
| ArchiveUsers.WriteMapping | migrations/get-users-from-archive.py:10-29 | the header comes first, followed by exactly the user rows: one per user of the `users_` members |
| ArchiveUsers.AppendMember | migrations/get-users-from-archive.py:18-19 | a member adds its users' rows when its name contains `users_`, and nothing otherwise |
| ArchiveUsers.AppendUsers | migrations/get-users-from-archive.py:21-29 | the loop over a member's users appends their rows in array order |
| ArchiveUsers.PrimaryEmail | migrations/get-users-from-archive.py:24-27 | the email loop computes the last primary address |
| ArchiveUsers.MappingRowsSnoc | migrations/get-users-from-archive.py:18-29 | processing one more member appends exactly that member's rows |

## Left out

- Reading the environment and `.env` is left out; the hostname, token, organization and enterprise name are parameters.
- File I/O is left out: the CSV reader and writers, `json.dump`, `tarfile` and the timestamped output file names. The provisioning input is its rows, the reports are their rows or entries, and the archive is its members with their decoded users.
- `encrypt` is left out. The sealed box is randomised and foreign, so it is the uninterpreted `seal`. Its failure on malformed key material is not modelled.
- The headers passed to `requests` are not part of `Http.Request`. `Http.AuthHeader` states the header on its own.
- The `except requests.exceptions.HTTPError` branches are left out. `requests` raises that error only from `raise_for_status`, which no script calls, so the branches do not run.
- Text.ParseNat, SecretsApi.ParseIds: accept only non-empty strings of the ASCII digits `0`-`9`. Python's `int` also accepts a sign, surrounding whitespace, `_` separators and non-ASCII Unicode decimal digits (such as Arabic-Indic digits), which the model rejects as errors.
- Provisioning.Service: the upsert status is a function of the request alone, so two identical requests in one run get the same status; a real server answers 201 and then 204 for a secret written twice.
- SecretsReport.Report: the `None` returned by a listing helper after a caught client error is not modelled. On the organization listings, the code would then fail on the subscript. The repository listing is a sequence.
- SecretsReport.Report: the repository list is read once for the repository rows and again inside each organization secret loop. Both reads are the one listing `Listings.repos`, so the model assumes the two calls return the same repositories.
- ForkNetwork.CollectForks: a `next` link that does not lead forward to a later page is the error `BadLink`. Python would refetch or loop forever on such a link.
- ForkNetwork.GenerateReport: the `None` of a failed organization or repository listing is not modelled. The code would raise on `len` or iteration.
- ForkNetwork.LastCommitOf: the commit URL's response is given by the oracle; the 10-second timeout is not modelled.
- ArchiveUsers.WriteMapping: a `users_` member that is a directory (`extractfile` returns `None`) and malformed JSON are not modelled.
- Console output other than the provisioning status and issue lines is left out: progress messages and printed exceptions.

## Findings

| source | as written | input that shows it | evidently intended | confidence | as-written member | corrected member |
|---|---|---|---|---|---|---|
| create-secrets/create_secrets_with_api.py:202-222 | after a row whose level is neither `Organization` nor `Repository`, the status check still reads `result`; this is unbound on the first row and otherwise is the previous row's response | a row upserted with status 201 followed by a row with level `Team`: the second secret is reported "Successfully created" although no request was made for it; `Team` on the first row raises `UnboundLocalError` | an unknown level prints only the issue line and moves on to the next row | not executed | Provisioning.ProcessRowsAsWritten, Provisioning.StaleStatusReported | Provisioning.ProcessRows, Provisioning.InvalidLevelIssuesNoCall |

=== FILE: archive_users.dfy ===
/**
 The user mapping extracted from a migration archive: every archive member
 whose name contains `users_` holds a JSON array of users, and each user
 becomes one `login,name,email,url` row, the email being the address of
 the user's primary email entry. Reading the tarball and writing the CSV
 file are left out; the archive is its list of members, already decoded.
 */
module ArchiveUsers {
  import opened Text

  const MappingHeader: seq<string> := ["login", "name", "email", "url"]
  const UsersMarker := "users_"

  datatype Email = Email(address: string, primary: bool)

  datatype User = User(login: string, name: string, emails: seq<Email>, url: string)

  /** An archive member: its name, and the users its JSON holds (read only for `users_` members). */
  datatype Member = Member(name: string, users: seq<User>)

  predicate IsUsersFile(m: Member)
  {
    Occurs(m.name, UsersMarker)
  }

  /** Entry `i` is primary and no later entry is. */
  predicate IsLastPrimary(emails: seq<Email>, i: int)
  {
    0 <= i < |emails| && emails[i].primary && forall j :: i < j < |emails| ==> !emails[j].primary
  }

  /**
   The address the loop over `emails` leaves behind: each primary entry
   overwrites the previous choice, so the last primary entry wins; `""` when
   none is primary.
   */
  function PrimaryAddress(emails: seq<Email>): (email: string)
    ensures (forall i :: 0 <= i < |emails| ==> !emails[i].primary) ==> email == ""
    ensures forall i :: IsLastPrimary(emails, i) ==> email == emails[i].address
  {
    if |emails| == 0 then ""
    else
      var init := emails[..|emails| - 1];
      var lastEntry := emails[|emails| - 1];
      if lastEntry.primary then lastEntry.address
      else
        assert forall i :: IsLastPrimary(emails, i) ==> IsLastPrimary(init, i);
        PrimaryAddress(init)
  }

  /** The CSV row of one user; everything but the email is copied as read. */
  function UserRow(u: User): (row: seq<string>)
    ensures |row| == |MappingHeader|
    ensures row[0] == u.login && row[1] == u.name && row[3] == u.url
    ensures row[2] == PrimaryAddress(u.emails)
  {
    [u.login, u.name, PrimaryAddress(u.emails), u.url]
  }

  /** The number of users in the `users_` members. */
  function UserCount(members: seq<Member>): nat
  {
    if |members| == 0 then 0
    else (if IsUsersFile(members[0]) then |members[0].users| else 0) + UserCount(members[1..])
  }

  /** The rows below the header: member order, then array order within a member. */
  function MappingRows(members: seq<Member>): (rows: seq<seq<string>>)
    ensures |rows| == UserCount(members)
    ensures forall i :: 0 <= i < |rows| ==> |rows[i]| == |MappingHeader|
  {
    if |members| == 0 then []
    else (if IsUsersFile(members[0]) then UserRows(members[0].users) else []) + MappingRows(members[1..])
  }

  function UserRows(users: seq<User>): (rows: seq<seq<string>>)
    ensures |rows| == |users|
    ensures forall i :: 0 <= i < |users| ==> rows[i] == UserRow(users[i])
  {
    seq(|users|, i requires 0 <= i < |users| => UserRow(users[i]))
  }

  /** A member whose name lacks `users_` contributes no row, wherever it sits. */
  lemma SkipsOtherMembers(m: Member, rest: seq<Member>)
    requires !Contains(m.name, UsersMarker)
    ensures MappingRows([m] + rest) == MappingRows(rest)
  {
    assert ([m] + rest)[1..] == rest;
  }

  /** Every user of a `users_` member appears, in its array position, after the rows of the members before it. */
  lemma {:induction false} UsersAppearInOrder(members: seq<Member>, k: nat, j: nat)
    requires k < |members| && Contains(members[k].name, UsersMarker) && j < |members[k].users|
    ensures UserCount(members[..k]) + j < |MappingRows(members)|
    ensures MappingRows(members)[UserCount(members[..k]) + j] == UserRow(members[k].users[j])
  {
    var head := if IsUsersFile(members[0]) then UserRows(members[0].users) else [];
    var rest := MappingRows(members[1..]);
    assert MappingRows(members) == head + rest;
    if k == 0 {
      assert UserCount(members[..0]) == 0;
      assert head == UserRows(members[0].users);
      assert (head + rest)[j] == head[j];
    } else {
      var tail := members[1..];
      assert members[..k][1..] == tail[..k - 1];
      assert UserCount(members[..k]) == |head| + UserCount(tail[..k - 1]);
      UsersAppearInOrder(tail, k - 1, j);
      var at := UserCount(tail[..k - 1]) + j;
      assert (head + rest)[|head| + at] == rest[at];
    }
  }

  /** The script's loop: the header first, then one row per user of each `users_` member. */
  method WriteMapping(members: seq<Member>) returns (csv: seq<seq<string>>)
    ensures |csv| == 1 + UserCount(members)
    ensures csv[0] == MappingHeader
    ensures csv[1..] == MappingRows(members)
  {
    csv := [MappingHeader];
    var k := 0;
    while k < |members|
      invariant 0 <= k <= |members|
      invariant csv == [MappingHeader] + MappingRows(members[..k])
    {
      csv := AppendMember(csv, members[k]);
      MappingRowsSnoc(members, k);
      k := k + 1;
    }
    assert members[..k] == members;
    assert csv == [MappingHeader] + MappingRows(members);
    assert csv[1..] == MappingRows(members);
  }

  /** One archive member: its users' rows when its name contains `users_`, nothing otherwise. */
  method AppendMember(csv: seq<seq<string>>, m: Member) returns (out: seq<seq<string>>)
    ensures out == csv + (if IsUsersFile(m) then UserRows(m.users) else [])
  {
    out := csv;
    if Occurs(m.name, UsersMarker) {
      out := AppendUsers(csv, m.users);
    }
  }

  /** The loop over one member's users: one row per user, in array order. */
  method AppendUsers(csv: seq<seq<string>>, users: seq<User>) returns (out: seq<seq<string>>)
    ensures out == csv + UserRows(users)
  {
    out := csv;
    var j := 0;
    while j < |users|
      invariant 0 <= j <= |users|
      invariant out == csv + UserRows(users[..j])
    {
      var u := users[j];
      var email := PrimaryEmail(u.emails);
      assert UserRows(users[..j + 1]) == UserRows(users[..j]) + [UserRow(u)];
      out := out + [[u.login, u.name, email, u.url]];
      j := j + 1;
    }
    assert users[..j] == users;
  }

  /** The innermost loop of the script: the address of the last primary entry. */
  method PrimaryEmail(emails: seq<Email>) returns (email: string)
    ensures email == PrimaryAddress(emails)
  {
    email := "";
    var e := 0;
    while e < |emails|
      invariant 0 <= e <= |emails|
      invariant email == PrimaryAddress(emails[..e])
    {
      assert emails[..e + 1][..e] == emails[..e];
      if emails[e].primary {
        email := emails[e].address;
      }
      e := e + 1;
    }
    assert emails[..e] == emails;
  }

  lemma {:induction false} MappingRowsSnoc(members: seq<Member>, k: nat)
    requires k < |members|
    ensures MappingRows(members[..k + 1])
         == MappingRows(members[..k]) + (if IsUsersFile(members[k]) then UserRows(members[k].users) else [])
  {
    if k == 0 {
      assert members[..1] == [members[0]];
      assert members[..1][1..] == [];
    } else {
      var tail := members[1..];
      assert members[..k + 1][1..] == tail[..k];
      assert members[..k][1..] == tail[..k - 1];
      MappingRowsSnoc(tail, k - 1);
    }
  }
}

=== FILE: fork_network.dfy ===
/**
 The enterprise network report: the last-commit lookup, the fork listing
 with its pagination loop and per-fork children, the branch-count
 coercion, and the per-organization assembly. Every REST/GraphQL answer is
 an oracle value of `Enterprise`.
 */
module ForkNetwork {
  import opened Wrappers
  import opened Http

  /** `{base}/repos/{org}/{name}/commits`, on the same base URL rule as the other scripts. */
  function CommitsUrl(hostname: Option<string>, org: string, name: string): (url: string)
    ensures url == ApiUrl(hostname) + "/repos/" + org + "/" + name + "/commits"
    ensures |url| > |ApiUrl(hostname)| && url[..|ApiUrl(hostname)|] == ApiUrl(hostname)
  {
    var base := ApiUrl(hostname);
    var url := base + "/repos/" + org + "/" + name + "/commits";
    assert url[..|base|] == base;
    url
  }

  /** `commit.author` of a commit listing entry. */
  datatype Author = Author(name: string, email: string, date: string)

  datatype CommitEntry = CommitEntry(author: Author)

  /** A response: its status code and its decoded JSON body. */
  datatype Response<T> = Response(status: nat, body: T)

  /** `[]` when there is no commit to report, otherwise the author object. */
  datatype LastCommit = NoCommit | LastAuthor(author: Author)

  /** Exceptions nothing in the script catches; each ends the report. */
  datatype NetworkError =
    | MissingToken       // `RestClientError` raised when no API token is configured
    | EmptyCommitList    // `IndexError` on `commit_response[0]` of an empty successful listing
    | MissingNextLink    // `AttributeError` on `links.get("next").get("url")` when only `last` is present
    | BadLink            // a next link that does not lead forward to a listed page
    | PageFetchFailed    // `RestClientError` on a later page; `get_fork_list` catches this one

  /** `get_last_commit`: the first listed commit's author, or `[]` for a failed (falsy) response. */
  function LastCommitOf(token: Option<string>, response: Response<seq<CommitEntry>>): (r: Result<LastCommit, NetworkError>)
    ensures token.None? <==> r == Failure(MissingToken)
    ensures token.Some? && !Truthy(response.status) ==> r == Success(NoCommit)
    ensures token.Some? && Truthy(response.status) ==>
      (|response.body| == 0 <==> r == Failure(EmptyCommitList)) &&
      (|response.body| > 0 ==> r == Success(LastAuthor(response.body[0].author)))
  {
    if token.None? then Failure(MissingToken)
    else if !Truthy(response.status) then Success(NoCommit)
    else if |response.body| == 0 then Failure(EmptyCommitList)
    else Success(LastAuthor(response.body[0].author))
  }

  /** A fork as `list_forks` returns it. */
  datatype ForkEntry = ForkEntry(name: string, fullName: string, ownerLogin: string, forksCount: int, forksUrl: string)

  /** The four-field record kept for a fork of a fork. */
  datatype ChildRecord = ChildRecord(name: string, fullName: string, ownerLogin: string, forkCount: int)

  /** The record kept for a fork, with its own forks when it has any. */
  datatype ForkRecord = ForkRecord(name: string, fullName: string, ownerLogin: string, forkCount: int,
                                   children: seq<ChildRecord>)

  function ChildRecords(entries: seq<ForkEntry>): (records: seq<ChildRecord>)
    ensures |records| == |entries|
    ensures forall i :: 0 <= i < |entries| ==>
      records[i] == ChildRecord(entries[i].name, entries[i].fullName, entries[i].ownerLogin, entries[i].forksCount)
  {
    seq(|entries|, i requires 0 <= i < |entries| =>
      ChildRecord(entries[i].name, entries[i].fullName, entries[i].ownerLogin, entries[i].forksCount))
  }

  /**
   One record per fork, in order; children are fetched from `forks_url` only
   for a positive fork count and kept only when that response is truthy.
   */
  function ForkRecords(forks: seq<ForkEntry>, children: string -> Response<seq<ForkEntry>>): (records: seq<ForkRecord>)
    ensures |records| == |forks|
    ensures forall i :: 0 <= i < |forks| ==>
      && records[i].name == forks[i].name && records[i].fullName == forks[i].fullName
      && records[i].ownerLogin == forks[i].ownerLogin && records[i].forkCount == forks[i].forksCount
    ensures forall i :: 0 <= i < |forks| ==>
      (|records[i].children| > 0 ==> forks[i].forksCount > 0 && Truthy(children(forks[i].forksUrl).status))
    ensures forall i :: 0 <= i < |forks| ==>
      (forks[i].forksCount > 0 && Truthy(children(forks[i].forksUrl).status) ==>
         records[i].children == ChildRecords(children(forks[i].forksUrl).body))
  {
    seq(|forks|, i requires 0 <= i < |forks| =>
      var f := forks[i];
      var kids := if f.forksCount > 0 && Truthy(children(f.forksUrl).status)
                  then ChildRecords(children(f.forksUrl).body) else [];
      ForkRecord(f.name, f.fullName, f.ownerLogin, f.forksCount, kids))
  }

  /**
   An entry of `Response.links`: the link's target (a page index of the
   listing) together with its `rel`, as the parsed Link header keeps both.
   */
  datatype Link = Link(page: nat, rel: string)

  datatype Page = Page(items: seq<ForkEntry>, next: Option<Link>, last: Option<Link>)

  /**
   The pages of a fork listing; the first is the answer to the initial
   request, and a later page is `None` when fetching it raised `RestClientError`.
   */
  datatype Listing = Listing(first: Page, later: seq<Option<Page>>)

  function Pages(l: Listing): (pages: seq<Option<Page>>)
    ensures |pages| == |l.later| + 1 && pages[0] == Some(l.first)
    ensures forall i :: 1 <= i < |pages| ==> pages[i] == l.later[i - 1]
  {
    [Some(l.first)] + l.later
  }

  /** `prefix + items` for a successful continuation, the error otherwise. */
  function Prepend(prefix: seq<ForkEntry>, r: Result<seq<ForkEntry>, NetworkError>): Result<seq<ForkEntry>, NetworkError>
  {
    match r
    case Success(items) => Success(prefix + items)
    case Failure(e) => Failure(e)
  }

  lemma PrependNothing(r: Result<seq<ForkEntry>, NetworkError>)
    ensures Prepend([], r) == r
  {
    if r.Success? {
      assert [] + r.value == r.value;
    }
  }

  lemma PrependTwice(a: seq<ForkEntry>, b: seq<ForkEntry>, r: Result<seq<ForkEntry>, NetworkError>)
    ensures Prepend(a, Prepend(b, r)) == Prepend(a + b, r)
  {
    if r.Success? {
      assert a + (b + r.value) == (a + b) + r.value;
    }
  }

  /**
   The entries gathered from page `cur` on: the loop stops when the page's
   `next` and `last` links are equal, which, since their `rel`s differ,
   happens only when the page has neither. A page whose fetch failed ends
   the gathering with `PageFetchFailed`.
   */
  function Follow(pages: seq<Option<Page>>, cur: nat): (r: Result<seq<ForkEntry>, NetworkError>)
    requires cur < |pages|
    ensures r.Success? ==> pages[cur].Some? && pages[cur].value.items <= r.value
    ensures pages[cur].Some? && pages[cur].value.next == pages[cur].value.last ==> r == Success(pages[cur].value.items)
    ensures r == Failure(PageFetchFailed) ==> exists i :: cur <= i < |pages| && pages[i].None?
    ensures pages[cur].Some? && pages[cur].value.next != pages[cur].value.last && pages[cur].value.next.None? ==>
      r == Failure(MissingNextLink)
    decreases |pages| - cur
  {
    match pages[cur]
    case None => Failure(PageFetchFailed)
    case Some(p) =>
      if p.next == p.last then Success(p.items)
      else
        match p.next
        case None => Failure(MissingNextLink)
        case Some(link) =>
          if cur < link.page < |pages| then Prepend(p.items, Follow(pages, link.page))
          else Failure(BadLink)
  }

  /** The pagination loop of `get_fork_list`, gathering every page it follows. */
  method CollectForks(listing: Listing) returns (r: Result<seq<ForkEntry>, NetworkError>)
    ensures r == Follow(Pages(listing), 0)
  {
    var pages := Pages(listing);
    var cur := 0;
    var gathered: seq<ForkEntry> := [];
    PrependNothing(Follow(pages, 0));
    while pages[cur].None? || pages[cur].value.next != pages[cur].value.last
      invariant 0 <= cur < |pages|
      invariant Follow(pages, 0) == Prepend(gathered, Follow(pages, cur))
      decreases |pages| - cur
    {
      if pages[cur].None? {
        return Failure(PageFetchFailed);
      }
      var page := pages[cur].value;
      match page.next
      case None =>
        return Failure(MissingNextLink);
      case Some(link) =>
        if !(cur < link.page < |pages|) {
          return Failure(BadLink);
        }
        assert Follow(pages, cur) == Prepend(page.items, Follow(pages, link.page));
        PrependTwice(gathered, page.items, Follow(pages, link.page));
        gathered := gathered + page.items;
        cur := link.page;
    }
    r := Success(gathered + pages[cur].value.items);
  }

  /**
   The links GitHub sends: every page but the last carries `next` (the
   following page) and `last`; the last page carries neither. Pages whose
   fetch failed carry nothing.
   */
  predicate GitHubLinks(pages: seq<Option<Page>>)
  {
    && |pages| >= 1
    && (pages[|pages| - 1].Some? ==> pages[|pages| - 1].value.next.None? && pages[|pages| - 1].value.last.None?)
    && forall i :: 0 <= i < |pages| - 1 && pages[i].Some? ==>
         pages[i].value.next == Some(Link(i + 1, "next")) && pages[i].value.last == Some(Link(|pages| - 1, "last"))
  }

  /** Every page of the listing was fetched. */
  predicate AllFetched(pages: seq<Option<Page>>)
  {
    forall i :: 0 <= i < |pages| ==> pages[i].Some?
  }

  /** The entries of the fetched pages, in page order. */
  function AllItems(pages: seq<Option<Page>>): seq<ForkEntry>
  {
    if |pages| == 0 then []
    else (if pages[0].Some? then pages[0].value.items else []) + AllItems(pages[1..])
  }

  /** Under GitHub's links, with every page fetched, the loop merges every page, the last one included, in page order. */
  lemma {:induction false} FollowMergesAllPages(pages: seq<Option<Page>>, cur: nat)
    requires GitHubLinks(pages) && AllFetched(pages) && cur < |pages|
    ensures Follow(pages, cur) == Success(AllItems(pages[cur..]))
    decreases |pages| - cur
  {
    var p := pages[cur].value;
    if cur == |pages| - 1 {
      var rest := pages[cur..];
      assert rest[0] == pages[cur] && rest[1..] == [];
      assert AllItems(rest) == p.items + AllItems([]);
      assert p.items + [] == p.items;
      assert p.next == p.last;
    } else {
      assert p.next != p.last;
      FollowMergesAllPages(pages, cur + 1);
      assert pages[cur..][1..] == pages[cur + 1..];
    }
  }

  /** Under GitHub's links, a page whose fetch failed, at or after `cur`, ends the gathering with `PageFetchFailed`. */
  lemma {:induction false} FollowStopsAtFailedPage(pages: seq<Option<Page>>, cur: nat, failed: nat)
    requires GitHubLinks(pages) && cur <= failed < |pages| && pages[failed].None?
    ensures Follow(pages, cur) == Failure(PageFetchFailed)
    decreases failed - cur
  {
    if pages[cur].Some? {
      var p := pages[cur].value;
      assert cur < |pages| - 1;
      assert p.next == Some(Link(cur + 1, "next")) && p.next != p.last;
      FollowStopsAtFailedPage(pages, cur + 1, failed);
    }
  }

  /** With a single page nothing further is requested. */
  lemma SinglePageFetchesNothing(listing: Listing)
    requires GitHubLinks(Pages(listing)) && |listing.later| == 0
    ensures Follow(Pages(listing), 0) == Success(listing.first.items)
  {
  }

  /**
   `get_fork_list`: `None` for the `RestClientError` of the initial listing
   or of a later page, which the function catches; other errors propagate.
   */
  function ForkList(listing: Option<Listing>, children: string -> Response<seq<ForkEntry>>)
    : (r: Result<Option<seq<ForkRecord>>, NetworkError>)
    ensures listing.None? ==> r == Success(None)
    ensures listing.Some? ==> (r.Success? <==> Follow(Pages(listing.value), 0).Success?
                                               || Follow(Pages(listing.value), 0) == Failure(PageFetchFailed))
    ensures listing.Some? && Follow(Pages(listing.value), 0).Success? ==>
      r == Success(Some(ForkRecords(Follow(Pages(listing.value), 0).value, children)))
    ensures listing.Some? && Follow(Pages(listing.value), 0) == Failure(PageFetchFailed) ==> r == Success(None)
    ensures r.Failure? ==> r.error != PageFetchFailed
  {
    match listing
    case None => Success(None)
    case Some(l) =>
      match Follow(Pages(l), 0)
      case Failure(e) => if e == PageFetchFailed then Success(None) else Failure(e)
      case Success(forks) => Success(Some(ForkRecords(forks, children)))
  }

  /**
   Under GitHub's links the fork list has one record per entry of every
   page when all pages were fetched, and is `None` when any later page's
   fetch failed.
   */
  lemma ForkListOfGitHubListing(l: Listing, children: string -> Response<seq<ForkEntry>>)
    requires GitHubLinks(Pages(l))
    ensures AllFetched(Pages(l)) ==> ForkList(Some(l), children) == Success(Some(ForkRecords(AllItems(Pages(l)), children)))
    ensures !AllFetched(Pages(l)) ==> ForkList(Some(l), children) == Success(None)
  {
    var pages := Pages(l);
    if AllFetched(pages) {
      FollowMergesAllPages(pages, 0);
      assert pages[0..] == pages;
    } else {
      var failed :| 0 <= failed < |pages| && pages[failed].None?;
      FollowStopsAtFailedPage(pages, 0, failed);
    }
  }

  /** `num_branches`: a branch count, or `[]` in place of a falsy one (0 or the `None` of a failed call). */
  datatype BranchCount = Count(n: nat) | EmptyList

  function NumBranches(count: Option<nat>): (b: BranchCount)
    ensures b == EmptyList <==> count.None? || count.value == 0
    ensures b.Count? ==> b.n == count.value && b.n > 0
  {
    if count.None? || count.value == 0 then EmptyList else Count(count.value)
  }

  datatype OrgInfo = OrgInfo(login: string)

  datatype RepoSummary = RepoSummary(name: string, updatedAt: string)

  /** The five keys of a repository's report entry. */
  datatype RepoEntry = RepoEntry(name: string, updatedAt: string, lastCommit: LastCommit,
                                 numBranches: BranchCount, forks: Option<seq<ForkRecord>>)

  datatype OrgEntry = OrgEntry(orgName: string, repos: seq<RepoEntry>)

  /** The enterprise as the listing calls see it. */
  datatype Enterprise = Enterprise(
    orgs: seq<OrgInfo>,                                    // get_orgs(enterprise)
    repos: string -> seq<RepoSummary>,                     // get_repos(org)
    commits: string -> Response<seq<CommitEntry>>,         // GET of a commits URL
    branchCount: (string, string) -> Option<nat>,          // get_branch_count(org, name)
    forks: (string, string) -> Option<Listing>,            // the pages of list_forks(org, name)
    children: string -> Response<seq<ForkEntry>>)          // GET of a fork's forks_url

  function RepoEntryOf(hostname: Option<string>, token: Option<string>, e: Enterprise,
                       org: string, repo: RepoSummary): (r: Result<RepoEntry, NetworkError>)
    ensures r.Success? ==> r.value.name == repo.name && r.value.updatedAt == repo.updatedAt
    ensures r.Success? ==> r.value.numBranches == NumBranches(e.branchCount(org, repo.name))
    ensures r.Success? ==> LastCommitOf(token, e.commits(CommitsUrl(hostname, org, repo.name))) == Success(r.value.lastCommit)
    ensures r.Success? ==> ForkList(e.forks(org, repo.name), e.children) == Success(r.value.forks)
    ensures r.Success? <==>
      && LastCommitOf(token, e.commits(CommitsUrl(hostname, org, repo.name))).Success?
      && ForkList(e.forks(org, repo.name), e.children).Success?
  {
    match LastCommitOf(token, e.commits(CommitsUrl(hostname, org, repo.name)))
    case Failure(err) => Failure(err)
    case Success(last) =>
      match ForkList(e.forks(org, repo.name), e.children)
      case Failure(err) => Failure(err)
      case Success(forks) =>
        Success(RepoEntry(repo.name, repo.updatedAt, last, NumBranches(e.branchCount(org, repo.name)), forks))
  }

  /** The entries of an organization's repositories, in listing order; the first error ends the report. */
  function RepoEntries(hostname: Option<string>, token: Option<string>, e: Enterprise,
                       org: string, repos: seq<RepoSummary>): (r: Result<seq<RepoEntry>, NetworkError>)
    ensures token.None? ==> r == if |repos| == 0 then Success([]) else Failure(MissingToken)
    ensures r.Success? ==> |r.value| == |repos|
    ensures r.Success? <==> forall j :: 0 <= j < |repos| ==> RepoEntryOf(hostname, token, e, org, repos[j]).Success?
    ensures r.Success? ==> forall j :: 0 <= j < |repos| ==>
      r.value[j] == RepoEntryOf(hostname, token, e, org, repos[j]).value
    ensures r.Success? ==> forall j :: 0 <= j < |repos| ==>
      r.value[j].name == repos[j].name && r.value[j].updatedAt == repos[j].updatedAt
  {
    if |repos| == 0 then Success([])
    else
      match RepoEntryOf(hostname, token, e, org, repos[0])
      case Failure(err) => Failure(err)
      case Success(entry) =>
        assert forall j :: 1 <= j < |repos| ==> repos[j] == repos[1..][j - 1];
        match RepoEntries(hostname, token, e, org, repos[1..])
        case Failure(err) => Failure(err)
        case Success(more) => Success([entry] + more)
  }

  function OrgEntries(hostname: Option<string>, token: Option<string>, e: Enterprise,
                      orgs: seq<OrgInfo>): (r: Result<seq<OrgEntry>, NetworkError>)
    ensures r.Success? <==>
      forall i :: 0 <= i < |orgs| ==> RepoEntries(hostname, token, e, orgs[i].login, e.repos(orgs[i].login)).Success?
    ensures r.Success? ==> |r.value| == |orgs|
    ensures r.Success? ==> forall i :: 0 <= i < |orgs| ==>
      var org := orgs[i].login;
      && r.value[i].orgName == org
      && RepoEntries(hostname, token, e, org, e.repos(org)).Success?
      && r.value[i].repos == RepoEntries(hostname, token, e, org, e.repos(org)).value
      && |r.value[i].repos| == |e.repos(org)|
      && forall j :: 0 <= j < |e.repos(org)| ==> r.value[i].repos[j].name == e.repos(org)[j].name
    ensures token.None? && (exists i :: 0 <= i < |orgs| && |e.repos(orgs[i].login)| > 0) ==> r == Failure(MissingToken)
  {
    if |orgs| == 0 then Success([])
    else
      var login := orgs[0].login;
      match RepoEntries(hostname, token, e, login, e.repos(login))
      case Failure(err) => Failure(err)
      case Success(entries) =>
        match OrgEntries(hostname, token, e, orgs[1..])
        case Failure(err) => Failure(err)
        case Success(more) => Success([OrgEntry(login, entries)] + more)
  }

  /** `generate_report`: one entry per organization, in order, each listing its repositories in order. */
  function GenerateReport(hostname: Option<string>, token: Option<string>, e: Enterprise)
    : (r: Result<seq<OrgEntry>, NetworkError>)
    ensures r.Success? <==>
      forall i :: 0 <= i < |e.orgs| ==> RepoEntries(hostname, token, e, e.orgs[i].login, e.repos(e.orgs[i].login)).Success?
    ensures r.Success? ==> |r.value| == |e.orgs|
    ensures r.Success? ==> forall i :: 0 <= i < |e.orgs| ==>
      var org := e.orgs[i].login;
      && r.value[i].orgName == org
      && RepoEntries(hostname, token, e, org, e.repos(org)).Success?
      && r.value[i].repos == RepoEntries(hostname, token, e, org, e.repos(org)).value
      && |r.value[i].repos| == |e.repos(org)|
      && forall j :: 0 <= j < |e.repos(org)| ==> r.value[i].repos[j].name == e.repos(org)[j].name
    ensures token.None? && (exists i :: 0 <= i < |e.orgs| && |e.repos(e.orgs[i].login)| > 0) ==> r == Failure(MissingToken)
  {
    OrgEntries(hostname, token, e, e.orgs)
  }
}

=== FILE: http.dfy ===
/**
 The HTTP boundary shared by the scripts: the REST base URL chosen from the
 optional enterprise hostname, the bearer-token header, JSON request bodies
 and the requests issued. Nothing here talks to a network; responses are
 supplied to the other modules as oracle values.
 */
module Http {
  import opened Wrappers
  import opened Text

  const PublicApiUrl := "https://api.github.com"
  const ApiPathSuffix := "/api/v3"

  /** The REST base URL: the public API, or `https://<hostname>/api/v3` for an enterprise server. */
  function ApiUrl(hostname: Option<string>): (url: string)
    ensures hostname.None? ==> url == PublicApiUrl
    ensures hostname.Some? ==> url == "https://" + hostname.value + ApiPathSuffix
  {
    match hostname
    case None => PublicApiUrl
    case Some(host) => "https://" + host + ApiPathSuffix
  }

  /** Distinct hostname settings never produce the same base URL. */
  lemma ApiUrlInjective(h1: Option<string>, h2: Option<string>)
    requires ApiUrl(h1) == ApiUrl(h2)
    ensures h1 == h2
  {
    var u1, u2 := ApiUrl(h1), ApiUrl(h2);
    assert h1.None? ==> u1[|u1| - 1] == 'm';
    assert h2.None? ==> u2[|u2| - 1] == 'm';
    assert h1.Some? ==> u1[|u1| - 1] == '3';
    assert h2.Some? ==> u2[|u2| - 1] == '3';
    if h1.Some? && h2.Some? {
      var a := "https://" + h1.value + ApiPathSuffix;
      var b := "https://" + h2.value + ApiPathSuffix;
      assert |h1.value| == |h2.value|;
      assert h1.value == a[8..|a| - 7];
      assert h2.value == b[8..|b| - 7];
    }
  }

  datatype Header = Header(name: string, value: string)

  const BearerPrefix := "Bearer "

  /** The authorization header, or `None` (the script only prints a warning) when no token is configured. */
  function AuthHeader(token: Option<string>): (h: Option<Header>)
    ensures h.Some? <==> token.Some?
    ensures h.Some? ==> h.value.name == "Authorization" && |h.value.value| == |BearerPrefix| + |token.value|
  {
    match token
    case None => None
    case Some(t) => Some(Header("Authorization", BearerPrefix + t))
  }

  /** The token a bearer header carries, if it is one. */
  function BearerToken(h: Option<Header>): Option<string>
  {
    if h.Some? && h.value.name == "Authorization" && |h.value.value| >= |BearerPrefix|
       && h.value.value[..|BearerPrefix|] == BearerPrefix
    then Some(h.value.value[|BearerPrefix|..])
    else None
  }

  /** The header carries exactly the configured token, and nothing when there is none. */
  lemma BearerTokenOfAuthHeader(token: Option<string>)
    ensures BearerToken(AuthHeader(token)) == token
  {
    if token.Some? {
      var v := BearerPrefix + token.value;
      assert v[..|BearerPrefix|] == BearerPrefix;
      assert v[|BearerPrefix|..] == token.value;
    }
  }

  /** The JSON values the request bodies hold. */
  datatype Json = JString(str: string) | JInt(num: int) | JArray(items: seq<Json>)

  /** One `"key": value` member of a JSON object; an object is a sequence of them, in insertion order. */
  datatype Field = Field(key: string, value: Json)

  function Keys(body: seq<Field>): (ks: seq<string>)
    ensures |ks| == |body|
    ensures forall i :: 0 <= i < |body| ==> ks[i] == body[i].key
  {
    if |body| == 0 then [] else [body[0].key] + Keys(body[1..])
  }

  /** `body[key]`, with Python's dict semantics: the value of the member with that key. */
  function Lookup(body: seq<Field>, key: string): (v: Option<Json>)
    ensures v.None? <==> key !in Keys(body)
  {
    if |body| == 0 then None
    else if body[0].key == key then Some(body[0].value)
    else Lookup(body[1..], key)
  }

  datatype Method = GET | PUT

  datatype Request = Request(verb: Method, url: string, body: seq<Field>)

  /** A body-less GET. */
  function Get(url: string): (r: Request)
    ensures r.verb == GET && r.url == url && r.body == []
  {
    Request(GET, url, [])
  }

  /** A `requests` response is truthy exactly when its status is below 400. */
  predicate Truthy(status: nat)
  {
    status < 400
  }
}

=== FILE: provisioning.dfy ===
/**
 The row loop of the secret-provisioning script: each CSV row is
 stripped of spaces, routed by level, access and type to one of the six
 upsert builders, its value sealed under the matching public key, and the
 upsert's HTTP status turned into a console line. Sealed-box encryption is
 the uninterpreted parameter `seal(publicKey, plaintext)`; the GitHub API is
 the `Service` oracle.
 */
module Provisioning {
  import opened Wrappers
  import opened Text
  import opened Http
  import opened SecretsApi

  /** One CSV row, by column: SecretLevel, SecretType, SecretName, SecretValue, SecretAccess, RepositoryName, RepositoryID. */
  datatype Row = Row(level: string, secretType: string, name: string, value: string,
                     access: string, repoName: string, repoId: string)

  predicate SpaceFree(s: string)
  {
    ' ' !in s
  }

  /** Spaces are removed from the first five columns; the two repository columns are used as read. */
  function Normalise(row: Row): (n: Row)
    ensures SpaceFree(n.level) && SpaceFree(n.secretType) && SpaceFree(n.name)
    ensures SpaceFree(n.value) && SpaceFree(n.access)
    ensures n.level == RemoveAll(row.level, ' ') && n.secretType == RemoveAll(row.secretType, ' ')
    ensures n.name == RemoveAll(row.name, ' ') && n.value == RemoveAll(row.value, ' ')
    ensures n.access == RemoveAll(row.access, ' ')
    ensures n.repoName == row.repoName && n.repoId == row.repoId
    ensures |n.value| == |row.value| - Count(row.value, ' ')
  {
    Row(RemoveAll(row.level, ' '), RemoveAll(row.secretType, ' '), RemoveAll(row.name, ' '),
        RemoveAll(row.value, ' '), RemoveAll(row.access, ' '), row.repoName, row.repoId)
  }

  /** A row whose first five columns hold no space is already normal; so normalising twice changes nothing. */
  lemma NormaliseFixesSpaceFreeRows(row: Row)
    requires SpaceFree(row.level) && SpaceFree(row.secretType) && SpaceFree(row.name)
    requires SpaceFree(row.value) && SpaceFree(row.access)
    ensures Normalise(row) == row
    ensures Normalise(Normalise(row)) == Normalise(row)
  {
    RemoveAllIdentity(row.level, ' ');
    RemoveAllIdentity(row.secretType, ' ');
    RemoveAllIdentity(row.name, ' ');
    RemoveAllIdentity(row.value, ' ');
    RemoveAllIdentity(row.access, ' ');
  }

  /** A public key as the key endpoints return it: `{"key_id": ..., "key": ...}`. */
  datatype PublicKey = PublicKey(keyId: string, key: string)

  /**
   The GitHub side of a run. `publicKey(url)` is the key a GET of `url`
   returns, `None` when the response has no `key_id`/`key` (the script's
   subscript then raises `KeyError`); `upsert(request)` is the status code of a PUT.
   */
  datatype Service = Service(publicKey: string -> Option<PublicKey>, upsert: Request -> nat)

  /** The reasons a run stops: each is an exception nothing in the script catches. */
  datatype Failure =
    | InvalidLiteral(piece: string)   // `int(piece)` in the Actions scoped upsert
    | MissingKey(url: string)         // `response["key_id"]` on a key response without one
    | UnboundResult                   // `result.status_code` before any upsert assigned `result`

  /** What a row does after its key fetches. */
  datatype Effect = Put(request: Request) | NoCall | Crash(failure: Failure)

  /** The GET requests a row issues for keys, then its effect. */
  datatype Step = Step(gets: seq<Request>, effect: Effect)

  /** The two organization keys fetched once, before the first row. */
  datatype OrgKeys = OrgKeys(actions: PublicKey, dependabot: PublicKey)

  function OrgKey(keys: OrgKeys, k: Kind): PublicKey
  {
    match k
    case Actions => keys.actions
    case Dependabot => keys.dependabot
  }

  /** Only the exact type `Action` selects the Actions store; every other type goes to Dependabot. */
  function KindOf(secretType: string): (k: Kind)
    ensures k == Actions <==> secretType == "Action"
  {
    if secretType == "Action" then Actions else Dependabot
  }

  predicate ValidLevel(level: string)
  {
    level == "Organization" || level == "Repository"
  }

  /** The body carries the value sealed under `key` and that same key's id. */
  predicate SealedWith(body: seq<Field>, key: PublicKey, plaintext: string, seal: (string, string) -> string)
  {
    && Lookup(body, "encrypted_value") == Some(JString(seal(key.key, plaintext)))
    && Lookup(body, "key_id") == Some(JString(key.keyId))
  }

  /** An organization-level row: the scoped upsert for `selected` access, the unscoped one otherwise. */
  function OrganizationStep(api: string, org: string, keys: OrgKeys, seal: (string, string) -> string, n: Row): (s: Step)
    ensures s.gets == []
    ensures s.effect.Put? || s.effect.Crash?
    ensures s.effect.Put? ==> var r := s.effect.request;
      && r.verb == PUT && r.url == OrgSecretUrl(api, KindOf(n.secretType), org, n.name)
      && SealedWith(r.body, OrgKey(keys, KindOf(n.secretType)), n.value, seal)
      && Lookup(r.body, "visibility") == Some(JString(n.access))
    ensures n.access == "selected" ==>
      (s.effect.Put? <==> SelectedRepositoryIds(KindOf(n.secretType), n.repoId).Success?)
    ensures n.access == "selected" && s.effect.Put? ==>
      && Keys(s.effect.request.body) == ["encrypted_value", "key_id", "visibility", "selected_repository_ids"]
      && Lookup(s.effect.request.body, "selected_repository_ids")
           == Some(SelectedRepositoryIds(KindOf(n.secretType), n.repoId).value)
    ensures n.access == "selected" && s.effect.Crash? ==>
      s.effect.failure.InvalidLiteral? && ParseNat(s.effect.failure.piece).None? && n.secretType == "Action"
    ensures n.access != "selected" ==> s.effect.Put?
    ensures n.access != "selected" ==> Keys(s.effect.request.body) == ["encrypted_value", "key_id", "visibility"]
  {
    var kind := KindOf(n.secretType);
    var key := OrgKey(keys, kind);
    var encrypted := seal(key.key, n.value);
    if n.access == "selected" then
      match UpdateOrgSecretScoped(api, kind, org, n.name, encrypted, key.keyId, n.access, n.repoId)
      case Success(request) => Step([], Put(request))
      case Failure(piece) => Step([], Crash(InvalidLiteral(piece)))
    else
      Step([], Put(UpdateOrgSecret(api, kind, org, n.name, encrypted, key.keyId, n.access)))
  }

  /**
   A repository-level row: both repository keys (Actions, then Dependabot)
   are fetched whatever the type, and the value is sealed under the one of
   the row's kind.
   */
  function RepositoryStep(api: string, org: string, svc: Service, seal: (string, string) -> string, n: Row): (s: Step)
    ensures 1 <= |s.gets| <= 2 && s.gets[0] == Get(RepoPublicKeyUrl(api, Actions, org, n.repoName))
    ensures |s.gets| == 2 ==> s.gets[1] == Get(RepoPublicKeyUrl(api, Dependabot, org, n.repoName))
    ensures s.effect.Put? || s.effect.Crash?
    ensures s.effect.Crash? ==> s.effect.failure.MissingKey? && svc.publicKey(s.effect.failure.url).None?
    ensures s.effect.Put? <==>
      svc.publicKey(RepoPublicKeyUrl(api, Actions, org, n.repoName)).Some? &&
      svc.publicKey(RepoPublicKeyUrl(api, Dependabot, org, n.repoName)).Some?
    ensures s.effect.Put? ==> var r := s.effect.request; var kind := KindOf(n.secretType);
      && r.verb == PUT && r.url == RepoSecretUrl(api, kind, org, n.repoName, n.name)
      && Keys(r.body) == ["encrypted_value", "key_id"]
      && SealedWith(r.body, svc.publicKey(RepoPublicKeyUrl(api, kind, org, n.repoName)).value, n.value, seal)
  {
    var actionsUrl := RepoPublicKeyUrl(api, Actions, org, n.repoName);
    var dependabotUrl := RepoPublicKeyUrl(api, Dependabot, org, n.repoName);
    match svc.publicKey(actionsUrl)
    case None => Step([Get(actionsUrl)], Crash(MissingKey(actionsUrl)))
    case Some(actionsKey) =>
      match svc.publicKey(dependabotUrl)
      case None => Step([Get(actionsUrl), Get(dependabotUrl)], Crash(MissingKey(dependabotUrl)))
      case Some(dependabotKey) =>
        var kind := KindOf(n.secretType);
        var key := if kind == Actions then actionsKey else dependabotKey;
        Step([Get(actionsUrl), Get(dependabotUrl)],
             Put(UpdateRepoSecret(api, kind, org, n.repoName, n.name, seal(key.key, n.value), key.keyId)))
  }

  /** One row: normalise it, then route it by level. */
  function Dispatch(api: string, org: string, keys: OrgKeys, svc: Service,
                    seal: (string, string) -> string, row: Row): (s: Step)
    ensures s.effect.NoCall? <==> !ValidLevel(Normalise(row).level)
    ensures s.effect.NoCall? ==> s.gets == []
    ensures Normalise(row).level == "Organization" ==> s.gets == []
    ensures Normalise(row).level == "Repository" ==> |s.gets| >= 1
    ensures forall i :: 0 <= i < |s.gets| ==> s.gets[i].verb == GET
    ensures var n := Normalise(row); var kind := KindOf(n.secretType);
            n.level == "Organization" && s.effect.Put? ==>
              && s.effect.request.url == OrgSecretUrl(api, kind, org, n.name)
              && SealedWith(s.effect.request.body, OrgKey(keys, kind), n.value, seal)
              && Lookup(s.effect.request.body, "visibility") == Some(JString(n.access))
              && (n.access == "selected" ==>
                    Keys(s.effect.request.body) == ["encrypted_value", "key_id", "visibility", "selected_repository_ids"])
              && (n.access != "selected" ==> Keys(s.effect.request.body) == ["encrypted_value", "key_id", "visibility"])
    ensures var n := Normalise(row);
            n.level == "Organization" && n.access != "selected" ==> s.effect.Put?
    ensures var n := Normalise(row); var kind := KindOf(n.secretType);
            n.level == "Organization" && n.access == "selected" ==>
              && (s.effect.Put? <==> SelectedRepositoryIds(kind, n.repoId).Success?)
              && (s.effect.Put? ==> Lookup(s.effect.request.body, "selected_repository_ids")
                                      == Some(SelectedRepositoryIds(kind, n.repoId).value))
    ensures var n := Normalise(row);
            n.level == "Repository" ==>
              (s.effect.Put? <==> && svc.publicKey(RepoPublicKeyUrl(api, Actions, org, n.repoName)).Some?
                                  && svc.publicKey(RepoPublicKeyUrl(api, Dependabot, org, n.repoName)).Some?)
    ensures var n := Normalise(row); var kind := KindOf(n.secretType);
            n.level == "Repository" && s.effect.Put? ==>
              && s.effect.request.url == RepoSecretUrl(api, kind, org, n.repoName, n.name)
              && svc.publicKey(RepoPublicKeyUrl(api, kind, org, n.repoName)).Some?
              && SealedWith(s.effect.request.body, svc.publicKey(RepoPublicKeyUrl(api, kind, org, n.repoName)).value,
                            n.value, seal)
              && Keys(s.effect.request.body) == ["encrypted_value", "key_id"]
  {
    var n := Normalise(row);
    if n.level == "Organization" then OrganizationStep(api, org, keys, seal, n)
    else if n.level == "Repository" then RepositoryStep(api, org, svc, seal, n)
    else Step([], NoCall)
  }

  /** The message the script prints for the upsert's status. */
  datatype Status = Created | Updated | Failed(code: nat)

  function Classify(code: nat): (s: Status)
    ensures s == Created <==> code == 201
    ensures s == Updated <==> code == 204
    ensures s.Failed? <==> code != 201 && code != 204
    ensures s.Failed? ==> s.code == code
  {
    if code == 201 then Created else if code == 204 then Updated else Failed(code)
  }

  const CreatedPrefix := "Successfully created a new value for "
  const UpdatedPrefix := "Successfully updated an existing value for "
  const FailedPrefix := "Hmm. Creating or updating a property named '"
  const FailedMiddle := "' failed with a following status code : "
  const IssuePrefix := "There was an issue with secret "

  /** The line printed after an upsert: the created, updated or failure message of its status code. */
  function StatusLine(name: string, code: nat): (line: string)
    ensures code == 201 ==> line == CreatedPrefix + name
    ensures code == 204 ==> line == UpdatedPrefix + name
    ensures code != 201 && code != 204 ==> line == FailedPrefix + name + FailedMiddle + NatToString(code)
  {
    match Classify(code)
    case Created => CreatedPrefix + name
    case Updated => UpdatedPrefix + name
    case Failed(c) => FailedPrefix + name + FailedMiddle + NatToString(c)
  }

  function IssueLine(name: string): string
  {
    IssuePrefix + name
  }

  /**
   A failure line ends with the status code, written so that it reads back
   as that code; success lines end with the secret's name.
   */
  lemma StatusLineReportsCode(name: string, code: nat)
    ensures var line := StatusLine(name, code);
            var head := |FailedPrefix + name + FailedMiddle|;
            && (code == 201 ==> line == CreatedPrefix + name)
            && (code == 204 ==> line == UpdatedPrefix + name)
            && (code != 201 && code != 204 ==>
                  |line| > head && line[..|FailedPrefix|] == FailedPrefix && ParseNat(line[head..]) == Some(code))
  {
    if code != 201 && code != 204 {
      var line := StatusLine(name, code);
      var head := FailedPrefix + name + FailedMiddle;
      assert line == head + NatToString(code);
      assert line[|head|..] == NatToString(code);
      assert line[..|FailedPrefix|] == FailedPrefix;
      ParseNatToString(code);
    }
  }

  /** The console lines and requests of a run, and the exception that ended it early, if any. */
  datatype Trace = Trace(requests: seq<Request>, lines: seq<string>, failure: Option<Failure>)

  function CountPuts(requests: seq<Request>): nat
  {
    if |requests| == 0 then 0 else (if requests[0].verb == PUT then 1 else 0) + CountPuts(requests[1..])
  }

  lemma {:induction false} CountPutsAppend(a: seq<Request>, b: seq<Request>)
    ensures CountPuts(a + b) == CountPuts(a) + CountPuts(b)
  {
    if |a| == 0 {
      assert a + b == b;
    } else {
      assert (a + b)[1..] == a[1..] + b;
      CountPutsAppend(a[1..], b);
    }
  }

  lemma {:induction false} CountPutsOfGets(gets: seq<Request>)
    requires forall i :: 0 <= i < |gets| ==> gets[i].verb == GET
    ensures CountPuts(gets) == 0
  {
    if |gets| > 0 {
      CountPutsOfGets(gets[1..]);
    }
  }

  /** Rows with a level the script routes. */
  function CountRouted(rows: seq<Row>): nat
  {
    if |rows| == 0 then 0 else (if ValidLevel(Normalise(rows[0]).level) then 1 else 0) + CountRouted(rows[1..])
  }

  /** The requests a row issues when it does not crash: its key fetches, then its upsert if it has one. */
  function StepRequests(s: Step): (r: seq<Request>)
    ensures |r| == |s.gets| + (if s.effect.Put? then 1 else 0)
    ensures r[..|s.gets|] == s.gets
    ensures s.effect.Put? ==> r[|s.gets|] == s.effect.request
  {
    s.gets + (if s.effect.Put? then [s.effect.request] else [])
  }

  /** The line a row prints when it does not crash: the status of its upsert, or the issue line when it has none. */
  function RowLine(api: string, org: string, keys: OrgKeys, svc: Service,
                   seal: (string, string) -> string, row: Row): (line: string)
    ensures ValidLevel(Normalise(row).level) && Dispatch(api, org, keys, svc, seal, row).effect.Put? ==>
      line == StatusLine(Normalise(row).name, svc.upsert(Dispatch(api, org, keys, svc, seal, row).effect.request))
    ensures !ValidLevel(Normalise(row).level) ==> line == IssueLine(Normalise(row).name)
  {
    var s := Dispatch(api, org, keys, svc, seal, row);
    if s.effect.Put? then StatusLine(Normalise(row).name, svc.upsert(s.effect.request))
    else IssueLine(Normalise(row).name)
  }

  /** The requests of each row, one block per row. */
  function PerRowRequests(api: string, org: string, keys: OrgKeys, svc: Service,
                          seal: (string, string) -> string, rows: seq<Row>): (blocks: seq<seq<Request>>)
    ensures |blocks| == |rows|
    ensures forall i :: 0 <= i < |rows| ==> blocks[i] == StepRequests(Dispatch(api, org, keys, svc, seal, rows[i]))
  {
    seq(|rows|, i requires 0 <= i < |rows| => StepRequests(Dispatch(api, org, keys, svc, seal, rows[i])))
  }

  /** The blocks laid end to end. */
  function Concat(blocks: seq<seq<Request>>): seq<Request>
  {
    if |blocks| == 0 then [] else blocks[0] + Concat(blocks[1..])
  }

  /**
   The rows in order, as intended: a row with an unknown level prints the
   issue line and issues no request. A `Crash` ends the run.
   */
  function ProcessRows(api: string, org: string, keys: OrgKeys, svc: Service,
                       seal: (string, string) -> string, rows: seq<Row>): (t: Trace)
    ensures |t.lines| <= |rows|
    ensures t.failure.None? ==> |t.lines| == |rows|
    ensures t.failure.None? ==> CountPuts(t.requests) == CountRouted(rows)
    ensures t.failure.Some? ==> t.failure.value != UnboundResult
    decreases |rows|
  {
    if |rows| == 0 then Trace([], [], None)
    else
      var step := Dispatch(api, org, keys, svc, seal, rows[0]);
      var name := Normalise(rows[0]).name;
      match step.effect
      case Crash(f) => Trace(step.gets, [], Some(f))
      case NoCall =>
        var rest := ProcessRows(api, org, keys, svc, seal, rows[1..]);
        Trace(rest.requests, [IssueLine(name)] + rest.lines, rest.failure)
      case Put(request) =>
        var rest := ProcessRows(api, org, keys, svc, seal, rows[1..]);
        CountPutsOfGets(step.gets);
        CountPutsAppend(step.gets, [request]);
        CountPutsAppend(step.gets + [request], rest.requests);
        Trace(step.gets + [request] + rest.requests, [StatusLine(name, svc.upsert(request))] + rest.lines, rest.failure)
  }

  /** A row that does not crash contributes its own requests and line ahead of those of the rows after it. */
  lemma FirstRowPrefix(api: string, org: string, keys: OrgKeys, svc: Service,
                       seal: (string, string) -> string, rows: seq<Row>)
    requires |rows| >= 1 && !Dispatch(api, org, keys, svc, seal, rows[0]).effect.Crash?
    ensures var t := ProcessRows(api, org, keys, svc, seal, rows);
            var rest := ProcessRows(api, org, keys, svc, seal, rows[1..]);
      && t.requests == StepRequests(Dispatch(api, org, keys, svc, seal, rows[0])) + rest.requests
      && t.lines == [RowLine(api, org, keys, svc, seal, rows[0])] + rest.lines
      && t.failure == rest.failure
  {
  }

  /** Line `i` of a run is the line of row `i`: its own upsert's status, or its issue line. */
  lemma {:induction false} ProcessRowsLines(api: string, org: string, keys: OrgKeys, svc: Service,
                                            seal: (string, string) -> string, rows: seq<Row>)
    ensures var t := ProcessRows(api, org, keys, svc, seal, rows);
      forall i :: 0 <= i < |t.lines| ==> t.lines[i] == RowLine(api, org, keys, svc, seal, rows[i])
    decreases |rows|
  {
    if |rows| > 0 && !Dispatch(api, org, keys, svc, seal, rows[0]).effect.Crash? {
      ProcessRowsLines(api, org, keys, svc, seal, rows[1..]);
      FirstRowPrefix(api, org, keys, svc, seal, rows);
      JoinLines(api, org, keys, svc, seal, rows, ProcessRows(api, org, keys, svc, seal, rows[1..]).lines);
    }
  }

  /**
   A run completes exactly when no row crashes; otherwise it stops at the
   first row that crashes, with that row's failure, after printing the
   lines of the rows before it.
   */
  lemma {:induction false} ProcessRowsStopsAtFirstCrash(api: string, org: string, keys: OrgKeys, svc: Service,
                                                        seal: (string, string) -> string, rows: seq<Row>)
    ensures var t := ProcessRows(api, org, keys, svc, seal, rows);
      t.failure.None? <==> forall i :: 0 <= i < |rows| ==> !Dispatch(api, org, keys, svc, seal, rows[i]).effect.Crash?
    ensures var t := ProcessRows(api, org, keys, svc, seal, rows);
      t.failure.Some? ==> var j := |t.lines|;
        && j < |rows|
        && Dispatch(api, org, keys, svc, seal, rows[j]).effect == Crash(t.failure.value)
        && (forall i :: 0 <= i < j ==> !Dispatch(api, org, keys, svc, seal, rows[i]).effect.Crash?)
    decreases |rows|
  {
    if |rows| > 0 && !Dispatch(api, org, keys, svc, seal, rows[0]).effect.Crash? {
      var rest := ProcessRows(api, org, keys, svc, seal, rows[1..]);
      ProcessRowsStopsAtFirstCrash(api, org, keys, svc, seal, rows[1..]);
      FirstRowPrefix(api, org, keys, svc, seal, rows);
      JoinNoCrash(api, org, keys, svc, seal, rows, if rest.failure.Some? then |rest.lines| else |rows| - 1);
      assert rest.failure.Some? ==> rows[|rest.lines| + 1] == rows[1..][|rest.lines|];
    }
  }

  /** The requests of a run that completes are those of each row in turn. */
  lemma {:induction false} CompletedRunRequests(api: string, org: string, keys: OrgKeys, svc: Service,
                                                seal: (string, string) -> string, rows: seq<Row>)
    ensures var t := ProcessRows(api, org, keys, svc, seal, rows);
      t.failure.None? ==> t.requests == Concat(PerRowRequests(api, org, keys, svc, seal, rows))
    decreases |rows|
  {
    if |rows| > 0 && !Dispatch(api, org, keys, svc, seal, rows[0]).effect.Crash? {
      CompletedRunRequests(api, org, keys, svc, seal, rows[1..]);
      FirstRowPrefix(api, org, keys, svc, seal, rows);
      JoinRequests(api, org, keys, svc, seal, rows, |rows| - 1);
      assert rows[..|rows|] == rows && rows[1..][..|rows| - 1] == rows[1..];
    }
  }

  /**
   The requests of a run that stops early: those of each row before the
   one that crashed, then that row's key fetches.
   */
  lemma {:induction false} StoppedRunRequests(api: string, org: string, keys: OrgKeys, svc: Service,
                                              seal: (string, string) -> string, rows: seq<Row>)
    ensures var t := ProcessRows(api, org, keys, svc, seal, rows);
      t.failure.Some? ==> (&& |t.lines| < |rows|
                           && t.requests == Concat(PerRowRequests(api, org, keys, svc, seal, rows[..|t.lines|]))
                                              + Dispatch(api, org, keys, svc, seal, rows[|t.lines|]).gets)
    decreases |rows|
  {
    if |rows| == 0 {
    } else if Dispatch(api, org, keys, svc, seal, rows[0]).effect.Crash? {
      assert rows[..0] == [];
    } else {
      var rest := ProcessRows(api, org, keys, svc, seal, rows[1..]);
      StoppedRunRequests(api, org, keys, svc, seal, rows[1..]);
      FirstRowPrefix(api, org, keys, svc, seal, rows);
      if rest.failure.Some? {
        var j := |rest.lines|;
        JoinRequests(api, org, keys, svc, seal, rows, j);
        assert rows[j + 1] == rows[1..][j];
      }
    }
  }

  /** The first row's line goes in front of the lines of the rows after it. */
  lemma JoinLines(api: string, org: string, keys: OrgKeys, svc: Service,
                  seal: (string, string) -> string, rows: seq<Row>, restLines: seq<string>)
    requires |rows| >= 1 && |restLines| <= |rows| - 1
    requires forall i :: 0 <= i < |restLines| ==> restLines[i] == RowLine(api, org, keys, svc, seal, rows[1..][i])
    ensures var lines := [RowLine(api, org, keys, svc, seal, rows[0])] + restLines;
      forall i :: 0 <= i < |lines| ==> lines[i] == RowLine(api, org, keys, svc, seal, rows[i])
  {
    var lines := [RowLine(api, org, keys, svc, seal, rows[0])] + restLines;
    forall i | 0 <= i < |lines|
      ensures lines[i] == RowLine(api, org, keys, svc, seal, rows[i])
    {
      if i > 0 {
        assert lines[i] == restLines[i - 1] && rows[i] == rows[1..][i - 1];
      }
    }
  }

  /** With a first row that does not crash, no row crashes exactly when none after the first does. */
  lemma JoinNoCrash(api: string, org: string, keys: OrgKeys, svc: Service,
                    seal: (string, string) -> string, rows: seq<Row>, j: nat)
    requires j < |rows| && !Dispatch(api, org, keys, svc, seal, rows[0]).effect.Crash?
    ensures (forall i :: 0 <= i < j ==> !Dispatch(api, org, keys, svc, seal, rows[1..][i]).effect.Crash?)
        ==> (forall i :: 0 <= i < j + 1 ==> !Dispatch(api, org, keys, svc, seal, rows[i]).effect.Crash?)
    ensures (forall i :: 0 <= i < j + 1 ==> !Dispatch(api, org, keys, svc, seal, rows[i]).effect.Crash?)
        ==> (forall i :: 0 <= i < j ==> !Dispatch(api, org, keys, svc, seal, rows[1..][i]).effect.Crash?)
  {
    assert forall i :: 1 <= i < |rows| ==> rows[i] == rows[1..][i - 1];
  }

  /** The requests of a prefix of the rows: the first row's, then those of the rest of the prefix. */
  lemma JoinRequests(api: string, org: string, keys: OrgKeys, svc: Service,
                     seal: (string, string) -> string, rows: seq<Row>, j: nat)
    requires j < |rows|
    ensures Concat(PerRowRequests(api, org, keys, svc, seal, rows[..j + 1]))
         == StepRequests(Dispatch(api, org, keys, svc, seal, rows[0]))
              + Concat(PerRowRequests(api, org, keys, svc, seal, rows[1..][..j]))
  {
    var prefix := PerRowRequests(api, org, keys, svc, seal, rows[..j + 1]);
    assert rows[..j + 1][1..] == rows[1..][..j];
    assert prefix[1..] == PerRowRequests(api, org, keys, svc, seal, rows[1..][..j]);
  }

  /**
   The two organization keys the run fetches before the first row, `None`
   when either fetch has no key.
   */
  function FetchedOrgKeys(api: string, org: string, svc: Service): (r: Option<OrgKeys>)
    ensures r.Some? <==> (&& svc.publicKey(OrgPublicKeyUrl(api, Actions, org)).Some?
                          && svc.publicKey(OrgPublicKeyUrl(api, Dependabot, org)).Some?)
    ensures r.Some? ==> && OrgKey(r.value, Actions) == svc.publicKey(OrgPublicKeyUrl(api, Actions, org)).value
                        && OrgKey(r.value, Dependabot) == svc.publicKey(OrgPublicKeyUrl(api, Dependabot, org)).value
  {
    match (svc.publicKey(OrgPublicKeyUrl(api, Actions, org)), svc.publicKey(OrgPublicKeyUrl(api, Dependabot, org)))
    case (Some(a), Some(d)) => Some(OrgKeys(a, d))
    case _ => None
  }

  /**
   A whole run: the base URL from the hostname, the two organization keys
   fetched first, then every row.
   */
  function Provision(hostname: Option<string>, org: string, svc: Service,
                     seal: (string, string) -> string, rows: seq<Row>): (t: Trace)
    ensures |t.requests| >= 1 && t.requests[0] == Get(OrgPublicKeyUrl(ApiUrl(hostname), Actions, org))
    ensures var a := OrgPublicKeyUrl(ApiUrl(hostname), Actions, org);
      svc.publicKey(a).None? ==> t.requests == [Get(a)] && t.failure == Some(MissingKey(a))
    ensures var a := OrgPublicKeyUrl(ApiUrl(hostname), Actions, org);
            var d := OrgPublicKeyUrl(ApiUrl(hostname), Dependabot, org);
      svc.publicKey(a).Some? && svc.publicKey(d).None? ==>
        t.requests == [Get(a), Get(d)] && t.failure == Some(MissingKey(d))
    ensures var api := ApiUrl(hostname);
      FetchedOrgKeys(api, org, svc).None? ==> t.lines == [] && t.failure.Some? && t.failure.value.MissingKey?
    ensures var api := ApiUrl(hostname); var keys := FetchedOrgKeys(api, org, svc);
      keys.Some? ==> var rest := ProcessRows(api, org, keys.value, svc, seal, rows);
        && t.requests == [Get(OrgPublicKeyUrl(api, Actions, org)), Get(OrgPublicKeyUrl(api, Dependabot, org))] + rest.requests
        && t.lines == rest.lines && t.failure == rest.failure
    ensures var api := ApiUrl(hostname); var keys := FetchedOrgKeys(api, org, svc);
      keys.Some? ==> forall i :: 0 <= i < |t.lines| ==> t.lines[i] == RowLine(api, org, keys.value, svc, seal, rows[i])
    ensures t.failure.None? ==> |t.lines| == |rows| && CountPuts(t.requests) == CountRouted(rows)
  {
    var api := ApiUrl(hostname);
    var actionsUrl := OrgPublicKeyUrl(api, Actions, org);
    var dependabotUrl := OrgPublicKeyUrl(api, Dependabot, org);
    match svc.publicKey(actionsUrl)
    case None => Trace([Get(actionsUrl)], [], Some(MissingKey(actionsUrl)))
    case Some(actionsKey) =>
      match svc.publicKey(dependabotUrl)
      case None => Trace([Get(actionsUrl), Get(dependabotUrl)], [], Some(MissingKey(dependabotUrl)))
      case Some(dependabotKey) =>
        var rest := ProcessRows(api, org, OrgKeys(actionsKey, dependabotKey), svc, seal, rows);
        CountPutsAppend([Get(actionsUrl), Get(dependabotUrl)], rest.requests);
        CountPutsOfGets([Get(actionsUrl), Get(dependabotUrl)]);
        ProcessRowsLines(api, org, OrgKeys(actionsKey, dependabotKey), svc, seal, rows);
        Trace([Get(actionsUrl), Get(dependabotUrl)] + rest.requests, rest.lines, rest.failure)
  }

  /**
   In a run, an organization-level row is sealed under the organization key
   of its own kind, as fetched before the first row, and carries that key's id.
   */
  lemma OrgRowSealedUnderFetchedKey(hostname: Option<string>, org: string, svc: Service,
                                    seal: (string, string) -> string, row: Row)
    requires FetchedOrgKeys(ApiUrl(hostname), org, svc).Some?
    requires Normalise(row).level == "Organization"
    ensures var api := ApiUrl(hostname); var n := Normalise(row); var kind := KindOf(n.secretType);
            var s := Dispatch(api, org, FetchedOrgKeys(api, org, svc).value, svc, seal, row);
      s.effect.Put? ==>
        && s.effect.request.url == OrgSecretUrl(api, kind, org, n.name)
        && SealedWith(s.effect.request.body, svc.publicKey(OrgPublicKeyUrl(api, kind, org)).value, n.value, seal)
  {
    var api := ApiUrl(hostname);
    var kind := KindOf(Normalise(row).secretType);
    assert OrgKey(FetchedOrgKeys(api, org, svc).value, kind) == svc.publicKey(OrgPublicKeyUrl(api, kind, org)).value;
  }

  /** A row with an unknown level costs no request and reports the issue about itself, not a status. */
  lemma InvalidLevelIssuesNoCall(api: string, org: string, keys: OrgKeys, svc: Service,
                                 seal: (string, string) -> string, row: Row, rows: seq<Row>)
    requires !ValidLevel(Normalise(row).level)
    ensures var t := ProcessRows(api, org, keys, svc, seal, [row] + rows);
            var rest := ProcessRows(api, org, keys, svc, seal, rows);
            t.requests == rest.requests && t.lines == [IssueLine(Normalise(row).name)] + rest.lines
  {
    assert ([row] + rows)[1..] == rows;
  }

  /**
   The loop as written: after an unknown level the status check still reads
   `result`, which is unbound on the first row and otherwise still holds the
   previous row's response.
   */
  function ProcessRowsAsWritten(api: string, org: string, keys: OrgKeys, svc: Service,
                                seal: (string, string) -> string, rows: seq<Row>, last: Option<nat>): (t: Trace)
    ensures |t.lines| <= 2 * |rows|
    ensures t.failure == Some(UnboundResult) ==>
      && last.None? && |rows| >= 1 && t.requests == [] && t.lines == [IssueLine(Normalise(rows[0]).name)]
      && !ValidLevel(Normalise(rows[0]).level)
    decreases |rows|
  {
    if |rows| == 0 then Trace([], [], None)
    else
      var step := Dispatch(api, org, keys, svc, seal, rows[0]);
      var name := Normalise(rows[0]).name;
      match step.effect
      case Crash(f) => Trace(step.gets, [], Some(f))
      case NoCall =>
        (match last
         case None => Trace([], [IssueLine(name)], Some(UnboundResult))
         case Some(code) =>
           var rest := ProcessRowsAsWritten(api, org, keys, svc, seal, rows[1..], last);
           Trace(rest.requests, [IssueLine(name), StatusLine(name, code)] + rest.lines, rest.failure))
      case Put(request) =>
        var code := svc.upsert(request);
        var rest := ProcessRowsAsWritten(api, org, keys, svc, seal, rows[1..], Some(code));
        Trace(step.gets + [request] + rest.requests, [StatusLine(name, code)] + rest.lines, rest.failure)
  }

  /**
   As written, a row that is upserted with status 201 followed by a row whose
   level is neither `Organization` nor `Repository` (say `Team`) prints a
   "created" line for the second secret although no request was made for
   it; the corrected loop prints only the issue line for it.
   */
  lemma {:induction false} StaleStatusReported(api: string, org: string, keys: OrgKeys, svc: Service,
                            seal: (string, string) -> string, good: Row, bad: Row, request: Request)
    requires Dispatch(api, org, keys, svc, seal, good) == Step([], Put(request)) && svc.upsert(request) == 201
    requires !ValidLevel(Normalise(bad).level)
    ensures var asWritten := ProcessRowsAsWritten(api, org, keys, svc, seal, [good, bad], None);
            && asWritten.requests == [request]
            && asWritten.lines == [CreatedPrefix + Normalise(good).name, IssueLine(Normalise(bad).name),
                                   CreatedPrefix + Normalise(bad).name]
    ensures var corrected := ProcessRows(api, org, keys, svc, seal, [good, bad]);
            && corrected.requests == [request]
            && corrected.lines == [CreatedPrefix + Normalise(good).name, IssueLine(Normalise(bad).name)]
  {
    AsWrittenRepeatsStatus(api, org, keys, svc, seal, good, bad, request);
    CorrectedLoopSkipsStaleStatus(api, org, keys, svc, seal, good, bad, request);
  }

  /** As written, a row with an unknown level after a response prints its issue line and then that response's status. */
  lemma AsWrittenStaleTail(api: string, org: string, keys: OrgKeys, svc: Service,
                           seal: (string, string) -> string, bad: Row, code: nat)
    requires !ValidLevel(Normalise(bad).level)
    ensures ProcessRowsAsWritten(api, org, keys, svc, seal, [bad], Some(code))
         == Trace([], [IssueLine(Normalise(bad).name), StatusLine(Normalise(bad).name, code)], None)
  {
    assert [bad][1..] == [];
    assert ProcessRowsAsWritten(api, org, keys, svc, seal, [], Some(code)) == Trace([], [], None);
  }

  /** The loop as written on the two rows: one request, and a "created" line for each secret. */
  lemma AsWrittenRepeatsStatus(api: string, org: string, keys: OrgKeys, svc: Service,
                               seal: (string, string) -> string, good: Row, bad: Row, request: Request)
    requires Dispatch(api, org, keys, svc, seal, good) == Step([], Put(request)) && svc.upsert(request) == 201
    requires !ValidLevel(Normalise(bad).level)
    ensures var asWritten := ProcessRowsAsWritten(api, org, keys, svc, seal, [good, bad], None);
            && asWritten.requests == [request]
            && asWritten.lines == [CreatedPrefix + Normalise(good).name, IssueLine(Normalise(bad).name),
                                   CreatedPrefix + Normalise(bad).name]
  {
    var rows := [good, bad];
    assert rows[0] == good && rows[1..] == [bad];
    AsWrittenStaleTail(api, org, keys, svc, seal, bad, 201);
    var tail := ProcessRowsAsWritten(api, org, keys, svc, seal, [bad], Some(201));
    assert ProcessRowsAsWritten(api, org, keys, svc, seal, rows, None)
        == Trace([] + [request] + tail.requests, [StatusLine(Normalise(good).name, 201)] + tail.lines, None);
  }

  /** The corrected loop on the same two rows: one request, and only the issue line for the second. */
  lemma CorrectedLoopSkipsStaleStatus(api: string, org: string, keys: OrgKeys, svc: Service,
                                      seal: (string, string) -> string, good: Row, bad: Row, request: Request)
    requires Dispatch(api, org, keys, svc, seal, good) == Step([], Put(request)) && svc.upsert(request) == 201
    requires !ValidLevel(Normalise(bad).level)
    ensures var corrected := ProcessRows(api, org, keys, svc, seal, [good, bad]);
            && corrected.requests == [request]
            && corrected.lines == [CreatedPrefix + Normalise(good).name, IssueLine(Normalise(bad).name)]
  {
    var rows := [good, bad];
    assert rows[0] == good && rows[1..] == [bad];
    FirstRowPrefix(api, org, keys, svc, seal, rows);
    InvalidLevelIssuesNoCall(api, org, keys, svc, seal, bad, []);
    assert [bad] + [] == [bad];
    assert ProcessRows(api, org, keys, svc, seal, []) == Trace([], [], None);
    assert RowLine(api, org, keys, svc, seal, good) == CreatedPrefix + Normalise(good).name;
  }

  /** As written, an unknown level on the very first row ends the run with an unbound `result`. */
  lemma FirstRowInvalidLevelCrashes(api: string, org: string, keys: OrgKeys, svc: Service,
                                    seal: (string, string) -> string, rows: seq<Row>)
    requires |rows| >= 1 && !ValidLevel(Normalise(rows[0]).level)
    ensures ProcessRowsAsWritten(api, org, keys, svc, seal, rows, None).failure == Some(UnboundResult)
  {
  }
}

=== FILE: secrets_api.dfy ===
/**
 The request builders of `ActionsSecrets` and `DependabotSecrets`: the
 public-key URLs and the three upsert calls (organization secret,
 organization secret scoped to selected repositories, repository secret).
 The two classes differ only in the URL namespace and in how
 `selected_repository_ids` is typed, so they are one module over `Kind`.
 */
module SecretsApi {
  import opened Wrappers
  import opened Text
  import opened Http

  datatype Kind = Actions | Dependabot

  /** The path segment that separates the two secret stores. */
  function Namespace(k: Kind): string
  {
    match k
    case Actions => "actions"
    case Dependabot => "dependabot"
  }

  function OrgSecretsPath(api: string, k: Kind, org: string): string
  {
    api + "/orgs/" + org + "/" + Namespace(k) + "/secrets"
  }

  function RepoSecretsPath(api: string, k: Kind, org: string, repo: string): string
  {
    api + "/repos/" + org + "/" + repo + "/" + Namespace(k) + "/secrets"
  }

  const PublicKeySuffix := "/public-key"

  /** `GET {api}/orgs/{org}/{namespace}/secrets/public-key`. */
  function OrgPublicKeyUrl(api: string, k: Kind, org: string): (url: string)
    ensures url == api + "/orgs/" + org + "/" + Namespace(k) + "/secrets/public-key"
    ensures |url| > |api| + |PublicKeySuffix| && url[..|api|] == api
    ensures url[|url| - |PublicKeySuffix|..] == PublicKeySuffix
  {
    var url := OrgSecretsPath(api, k, org) + PublicKeySuffix;
    assert url[..|api|] == api;
    url
  }

  /** `GET {api}/repos/{org}/{repo}/{namespace}/secrets/public-key`. */
  function RepoPublicKeyUrl(api: string, k: Kind, org: string, repo: string): (url: string)
    ensures url == api + "/repos/" + org + "/" + repo + "/" + Namespace(k) + "/secrets/public-key"
    ensures |url| > |api| + |PublicKeySuffix| && url[..|api|] == api
    ensures url[|url| - |PublicKeySuffix|..] == PublicKeySuffix
  {
    var url := RepoSecretsPath(api, k, org, repo) + PublicKeySuffix;
    assert url[..|api|] == api;
    url
  }

  /** `PUT {api}/orgs/{org}/{namespace}/secrets/{name}`, shared by the scoped and unscoped upserts. */
  function OrgSecretUrl(api: string, k: Kind, org: string, name: string): string
  {
    OrgSecretsPath(api, k, org) + "/" + name
  }

  /** `PUT {api}/repos/{org}/{repo}/{namespace}/secrets/{name}`. */
  function RepoSecretUrl(api: string, k: Kind, org: string, repo: string, name: string): string
  {
    RepoSecretsPath(api, k, org, repo) + "/" + name
  }

  /** The Actions and Dependabot key endpoints never coincide, whatever the organizations. */
  lemma OrgKeyUrlsSeparateKinds(api: string, org1: string, org2: string)
    ensures OrgPublicKeyUrl(api, Actions, org1) != OrgPublicKeyUrl(api, Dependabot, org2)
  {
    var a := OrgPublicKeyUrl(api, Actions, org1);
    var d := OrgPublicKeyUrl(api, Dependabot, org2);
    // "...actions/secrets/public-key" against "...dependabot/secrets/public-key":
    // the character before "/secrets/public-key" is 's' in one and 't' in the other.
    var tail := |"/secrets/public-key"|;
    assert a[|a| - tail - 1] == 's';
    assert d[|d| - tail - 1] == 't';
  }

  /** A repository key is never fetched from an organization key endpoint (nor the other way). */
  lemma OrgAndRepoKeyUrlsDiffer(api: string, k1: Kind, k2: Kind, org1: string, org2: string, repo: string)
    ensures OrgPublicKeyUrl(api, k1, org1) != RepoPublicKeyUrl(api, k2, org2, repo)
  {
    var o := OrgPublicKeyUrl(api, k1, org1);
    var r := RepoPublicKeyUrl(api, k2, org2, repo);
    assert o[|api| + 1] == 'o';
    assert r[|api| + 1] == 'r';
  }

  /** `{"encrypted_value": ..., "key_id": ..., "visibility": ...}`. */
  function OrgSecretBody(encrypted: string, keyId: string, visibility: string): seq<Field>
  {
    [Field("encrypted_value", JString(encrypted)), Field("key_id", JString(keyId)),
     Field("visibility", JString(visibility))]
  }

  /** `update_org_secret`: the organization-wide (unscoped) upsert. */
  function UpdateOrgSecret(api: string, k: Kind, org: string, name: string,
                           encrypted: string, keyId: string, visibility: string): (r: Request)
    ensures r.verb == PUT && r.url == OrgSecretUrl(api, k, org, name)
    ensures Keys(r.body) == ["encrypted_value", "key_id", "visibility"]
    ensures Lookup(r.body, "encrypted_value") == Some(JString(encrypted))
    ensures Lookup(r.body, "key_id") == Some(JString(keyId))
    ensures Lookup(r.body, "visibility") == Some(JString(visibility))
  {
    var body := OrgSecretBody(encrypted, keyId, visibility);
    assert body[1..][1..] == [Field("visibility", JString(visibility))];
    assert Lookup(body[1..], "visibility") == Some(JString(visibility));
    Request(PUT, OrgSecretUrl(api, k, org, name), body)
  }

  /**
   `list(map(int, pieces))`: every piece parsed as a decimal integer, or the
   first piece `int` rejects (the `ValueError` it raises).
   */
  function ParseIds(pieces: seq<string>): (r: Result<seq<nat>, string>)
    ensures r.Success? <==> forall i :: 0 <= i < |pieces| ==> ParseNat(pieces[i]).Some?
    ensures r.Success? ==> |r.value| == |pieces|
    ensures r.Success? ==> forall i :: 0 <= i < |pieces| ==> ParseNat(pieces[i]) == Some(r.value[i])
    ensures r.Failure? ==> exists i :: 0 <= i < |pieces| && pieces[i] == r.error && ParseNat(r.error).None?
                                       && forall j :: 0 <= j < i ==> ParseNat(pieces[j]).Some?
  {
    if |pieces| == 0 then Success([])
    else
      match ParseNat(pieces[0])
      case None => Failure(pieces[0])
      case Some(n) =>
        match ParseIds(pieces[1..])
        case Failure(bad) =>
          assert forall j :: 1 <= j < |pieces| ==> pieces[j] == pieces[1..][j - 1];
          Failure(bad)
        case Success(ns) =>
          assert forall j :: 1 <= j < |pieces| ==> pieces[j] == pieces[1..][j - 1];
          Success([n] + ns)
  }

  function IntArray(ns: seq<nat>): (items: seq<Json>)
    ensures |items| == |ns|
    ensures forall i :: 0 <= i < |ns| ==> items[i] == JInt(ns[i])
  {
    seq(|ns|, i requires 0 <= i < |ns| => JInt(ns[i]))
  }

  function StringArray(ss: seq<string>): (items: seq<Json>)
    ensures |items| == |ss|
    ensures forall i :: 0 <= i < |ss| ==> items[i] == JString(ss[i])
  {
    seq(|ss|, i requires 0 <= i < |ss| => JString(ss[i]))
  }

  /**
   `selected_repository_ids` built from the `;`-separated repository field:
   integers for Actions, the raw pieces as strings for Dependabot. An
   Actions piece that is not a number is the error.
   */
  function SelectedRepositoryIds(k: Kind, repos: string): (r: Result<Json, string>)
    ensures r.Success? <==> k == Dependabot || forall i :: 0 <= i < |Split(repos, ';')| ==> ParseNat(Split(repos, ';')[i]).Some?
    ensures r.Success? ==> r.value.JArray? && |r.value.items| == Count(repos, ';') + 1
    ensures k == Dependabot ==> r.Success? && forall i :: 0 <= i < |Split(repos, ';')| ==>
      r.value.items[i] == JString(Split(repos, ';')[i])
    ensures k == Actions && r.Success? ==> forall i :: 0 <= i < |Split(repos, ';')| ==>
      Some(r.value.items[i]) == (match ParseNat(Split(repos, ';')[i]) case Some(n) => Some(JInt(n)) case None => None)
    ensures r.Failure? ==> k == Actions && r.error in Split(repos, ';') && ParseNat(r.error).None?
  {
    var pieces := Split(repos, ';');
    match k
    case Actions =>
      (match ParseIds(pieces)
       case Success(ids) => Success(JArray(IntArray(ids)))
       case Failure(bad) => Failure(bad))
    case Dependabot => Success(JArray(StringArray(pieces)))
  }

  /**
   `update_org_secret_scoped`: the upsert restricted to selected repositories.
   `Failure` is the uncaught `ValueError` of the Actions id parse: no PUT is made.
   */
  function UpdateOrgSecretScoped(api: string, k: Kind, org: string, name: string, encrypted: string,
                                 keyId: string, visibility: string, repos: string): (r: Result<Request, string>)
    ensures r.Success? <==> SelectedRepositoryIds(k, repos).Success?
    ensures k == Dependabot ==> r.Success?
    ensures r.Success? ==> r.value.verb == PUT && r.value.url == OrgSecretUrl(api, k, org, name)
    ensures r.Success? ==> Keys(r.value.body) == ["encrypted_value", "key_id", "visibility", "selected_repository_ids"]
    ensures r.Success? ==> && Lookup(r.value.body, "encrypted_value") == Some(JString(encrypted))
                           && Lookup(r.value.body, "key_id") == Some(JString(keyId))
                           && Lookup(r.value.body, "visibility") == Some(JString(visibility))
                           && Lookup(r.value.body, "selected_repository_ids") == Some(SelectedRepositoryIds(k, repos).value)
    ensures r.Failure? ==> k == Actions && ParseNat(r.error).None? && r.error in Split(repos, ';')
  {
    match SelectedRepositoryIds(k, repos)
    case Failure(bad) => Failure(bad)
    case Success(ids) =>
      var body := OrgSecretBody(encrypted, keyId, visibility) + [Field("selected_repository_ids", ids)];
      assert body[1..][1..][1..] == [Field("selected_repository_ids", ids)];
      assert Lookup(body[1..][1..], "selected_repository_ids") == Some(ids);
      assert Lookup(body[1..], "selected_repository_ids") == Some(ids);
      assert Lookup(body[1..], "visibility") == Some(JString(visibility));
      Success(Request(PUT, OrgSecretUrl(api, k, org, name), body))
  }

  /** `update_repo_secret`: a repository secret carries only the ciphertext and the key id. */
  function UpdateRepoSecret(api: string, k: Kind, org: string, repo: string, name: string,
                            encrypted: string, keyId: string): (r: Request)
    ensures r.verb == PUT && r.url == RepoSecretUrl(api, k, org, repo, name)
    ensures Keys(r.body) == ["encrypted_value", "key_id"]
    ensures Lookup(r.body, "encrypted_value") == Some(JString(encrypted))
    ensures Lookup(r.body, "key_id") == Some(JString(keyId))
  {
    Request(PUT, RepoSecretUrl(api, k, org, repo, name),
            [Field("encrypted_value", JString(encrypted)), Field("key_id", JString(keyId))])
  }

  function Spell(ns: seq<nat>): (ss: seq<string>)
    ensures |ss| == |ns|
    ensures forall i :: 0 <= i < |ns| ==> ss[i] == NatToString(ns[i])
  {
    seq(|ns|, i requires 0 <= i < |ns| => NatToString(ns[i]))
  }

  /** Writing ids as `str(id)` joined by `;` and parsing them back yields the same ids, in order. */
  lemma ActionsIdsRoundTrip(ids: seq<nat>)
    requires |ids| >= 1
    ensures SelectedRepositoryIds(Actions, Join(Spell(ids), ';')) == Success(JArray(IntArray(ids)))
  {
    var ss := Spell(ids);
    forall i | 0 <= i < |ss|
      ensures ';' !in ss[i] && ParseNat(ss[i]) == Some(ids[i])
    {
      ParseNatToString(ids[i]);
    }
    JoinThenSplit(ss, ';');
    var r := ParseIds(ss);
    assert r.value == ids;
  }

  /** The string ids sent for a Dependabot secret, read back from the JSON array. */
  function StringsOf(items: seq<Json>): seq<string>
  {
    if |items| == 0 then []
    else (if items[0].JString? then [items[0].str] else []) + StringsOf(items[1..])
  }

  lemma {:induction false} StringsOfStringArray(ss: seq<string>)
    ensures StringsOf(StringArray(ss)) == ss
  {
    if |ss| > 0 {
      assert StringArray(ss)[1..] == StringArray(ss[1..]);
      StringsOfStringArray(ss[1..]);
      assert [ss[0]] + ss[1..] == ss;
    }
  }

  /**
   Dependabot ids are the `;`-pieces kept as strings: none holds a `;`,
   there is one more than there are `;`s, and joining them with `;` gives
   the repository field back exactly.
   */
  lemma {:induction false} DependabotIdsRoundTrip(repos: string)
    ensures var r := SelectedRepositoryIds(Dependabot, repos);
            && r.Success? && r.value.JArray?
            && |r.value.items| == Count(repos, ';') + 1
            && (forall i :: 0 <= i < |r.value.items| ==> r.value.items[i].JString? && ';' !in r.value.items[i].str)
            && Join(StringsOf(r.value.items), ';') == repos
  {
    StringsOfStringArray(Split(repos, ';'));
    SplitThenJoin(repos, ';');
  }

  /** `"1;2;3"` sent for an Actions secret becomes `[1, 2, 3]`. */
  lemma ActionsExample()
    ensures SelectedRepositoryIds(Actions, "1;2;3") == Success(JArray([JInt(1), JInt(2), JInt(3)]))
  {
    assert Spell([1, 2, 3]) == ["1", "2", "3"];
    assert Join(["1", "2", "3"], ';') == "1;2;3";
    ActionsIdsRoundTrip([1, 2, 3]);
    assert IntArray([1, 2, 3]) == [JInt(1), JInt(2), JInt(3)];
  }

  /** `"repoA;repoB"` sent for a Dependabot secret becomes `["repoA", "repoB"]`. */
  lemma {:induction false} DependabotExample()
    ensures SelectedRepositoryIds(Dependabot, "repoA;repoB") == Success(JArray([JString("repoA"), JString("repoB")]))
  {
    var pieces := ["repoA", "repoB"];
    assert ';' !in pieces[0] && ';' !in pieces[1];
    JoinThenSplit(pieces, ';');
    assert Join(pieces, ';') == "repoA;repoB";
    assert StringArray(pieces) == [JString("repoA"), JString("repoB")];
  }

  /** An empty repository field gives one empty id, not an empty list. */
  lemma DependabotEmptyExample()
    ensures SelectedRepositoryIds(Dependabot, "") == Success(JArray([JString("")]))
  {
    assert StringArray([""]) == [JString("")];
  }
}

=== FILE: secrets_report.dfy ===
/**
 The row-building logic of the organization secrets inventory report. The
 REST and GraphQL listings are the `Listings` oracle; the CSV writer is left
 out. The code's quirks are kept as written: the `private` filter reads the
 loop variables after the loop has finished, so it judges only the last
 repository listed; the filter accepts PRIVATE/INTERNAL for Actions but
 PUBLIC/INTERNAL for Dependabot and Codespaces; and a `selected` Dependabot
 secret lists its repositories through the Actions lookup.
 */
module SecretsReport {
  import opened Wrappers

  datatype SecretKind = Action | Dependabot | Codespaces

  function KindName(k: SecretKind): string
  {
    match k
    case Action => "Action"
    case Dependabot => "Dependabot"
    case Codespaces => "Codespaces"
  }

  /** An entry of `list_organization_secrets(org)["secrets"]`. */
  datatype OrgSecret = OrgSecret(name: string, visibility: string)

  /** An entry of `list_selected_repositories_for_an_organization_secret(org, name)["repositories"]`. */
  datatype ScopedRepo = ScopedRepo(name: string, id: int)

  /** A repository of the organization as the GraphQL listing gives it. */
  datatype RepoInfo = RepoInfo(name: string, databaseId: int, visibility: string)

  /** A CSV cell: the report mixes strings and numeric ids. */
  datatype Cell = Text(text: string) | Number(n: int)

  type Row = seq<Cell>

  /**
   The organization as the listing calls see it: its repositories, its
   secrets per kind, the repositories selected for a secret (per lookup
   kind), and each repository's own secret names (`None` when the call failed).
   */
  datatype Listings = Listings(
    repos: seq<RepoInfo>,
    orgSecrets: SecretKind -> seq<OrgSecret>,
    selected: (SecretKind, string) -> seq<ScopedRepo>,
    repoSecrets: (SecretKind, string) -> Option<seq<string>>)

  /** `UnboundLocalError`: a `private` secret met an empty repository list, so the filter reads unset variables. */
  datatype ReportError = UnboundPrivateRepo(kind: SecretKind, secret: string)

  const Header: seq<string> := ["SecretLevel", "SecretType", "SecretName", "SecretAccess", "RepositoryName", "RepositoryID"]

  function SecretRow(level: string, k: SecretKind, name: string, access: string, repoName: string, repoId: Cell): (r: Row)
    ensures |r| == |Header|
    ensures r[0] == Text(level) && r[1] == Text(KindName(k))
  {
    [Text(level), Text(KindName(k)), Text(name), Text(access), Text(repoName), repoId]
  }

  /** The lookup the code calls for a `selected` secret: Dependabot borrows the Actions one. */
  function ScopedLookup(k: SecretKind): (lookup: SecretKind)
    ensures lookup != Dependabot
    ensures k != Dependabot ==> lookup == k
  {
    if k == Dependabot then Action else k
  }

  /** The visibilities the `private` branch accepts, per kind. */
  predicate PrivateFilter(k: SecretKind, visibility: string)
  {
    if k == Action then visibility == "PRIVATE" || visibility == "INTERNAL"
    else visibility == "PUBLIC" || visibility == "INTERNAL"
  }

  /** One row per selected repository, in the order listed. */
  function SelectedRows(k: SecretKind, s: OrgSecret, scoped: seq<ScopedRepo>): (rows: seq<Row>)
    ensures |rows| == |scoped|
    ensures forall i :: 0 <= i < |rows| ==>
      rows[i] == SecretRow("Organization", k, s.name, s.visibility, scoped[i].name, Number(scoped[i].id))
  {
    seq(|scoped|, i requires 0 <= i < |scoped| =>
      SecretRow("Organization", k, s.name, s.visibility, scoped[i].name, Number(scoped[i].id)))
  }

  /** The rows one organization secret contributes. */
  function OrgSecretRows(k: SecretKind, s: OrgSecret, listings: Listings): (r: Result<seq<Row>, ReportError>)
    ensures r.Failure? <==> s.visibility == "private" && |listings.repos| == 0
    ensures r.Success? ==> forall i :: 0 <= i < |r.value| ==>
      |r.value[i]| == |Header| && r.value[i][0] == Text("Organization") && r.value[i][1] == Text(KindName(k))
    ensures r.Success? ==> forall i :: 0 <= i < |r.value| ==>
      r.value[i][2] == Text(s.name) && r.value[i][3] == Text(s.visibility)
    ensures s.visibility == "selected" ==> r.Success? && |r.value| == |listings.selected(ScopedLookup(k), s.name)|
    ensures s.visibility == "selected" ==> var scoped := listings.selected(ScopedLookup(k), s.name);
      forall i :: 0 <= i < |scoped| ==> r.value[i][4] == Text(scoped[i].name) && r.value[i][5] == Number(scoped[i].id)
    ensures s.visibility == "private" && r.Success? ==>
      var last := listings.repos[|listings.repos| - 1];
      && |r.value| <= 1
      && (|r.value| == 1 <==> PrivateFilter(k, last.visibility))
      && (|r.value| == 1 ==> r.value[0][4] == Text(last.name) && r.value[0][5] == Number(last.databaseId))
    ensures s.visibility != "selected" && s.visibility != "private" ==>
      r.Success? && |r.value| == 1 && r.value[0][4..] == [Text("all_repositories"), Text("NA")]
  {
    if s.visibility == "selected" then
      Success(SelectedRows(k, s, listings.selected(ScopedLookup(k), s.name)))
    else if s.visibility == "private" then
      if |listings.repos| == 0 then Failure(UnboundPrivateRepo(k, s.name))
      else
        var last := listings.repos[|listings.repos| - 1];
        if PrivateFilter(k, last.visibility)
        then Success([SecretRow("Organization", k, s.name, s.visibility, last.name, Number(last.databaseId))])
        else Success([])
    else
      Success([SecretRow("Organization", k, s.name, s.visibility, "all_repositories", Text("NA"))])
  }

  /** The concatenation of a sequence of row blocks, in order. */
  function Flatten(blocks: seq<seq<Row>>): seq<Row>
  {
    if |blocks| == 0 then [] else blocks[0] + Flatten(blocks[1..])
  }

  /**
   Row `i` of block `j` sits in the concatenation right after the rows of the
   blocks before it: so each report row can be traced to the secret or
   repository it came from.
   */
  lemma {:induction false} FlattenLocates(blocks: seq<seq<Row>>, j: nat, i: nat)
    requires j < |blocks| && i < |blocks[j]|
    ensures |Flatten(blocks[..j])| + i < |Flatten(blocks)|
    ensures Flatten(blocks)[|Flatten(blocks[..j])| + i] == blocks[j][i]
  {
    assert Flatten(blocks) == blocks[0] + Flatten(blocks[1..]);
    if j == 0 {
      assert Flatten(blocks[..0]) == [];
    } else {
      var tail := blocks[1..];
      assert blocks[..j][0] == blocks[0];
      assert blocks[..j][1..] == tail[..j - 1];
      assert Flatten(blocks[..j]) == blocks[0] + Flatten(tail[..j - 1]);
      FlattenLocates(tail, j - 1, i);
      var at := |Flatten(tail[..j - 1])| + i;
      assert (blocks[0] + Flatten(tail))[|blocks[0]| + at] == Flatten(tail)[at];
    }
  }

  /** The rows a secret contributes when its rows could be built. */
  function RowsOrNone(r: Result<seq<Row>, ReportError>): seq<Row>
  {
    match r
    case Success(rows) => rows
    case Failure(_) => []
  }

  /** The rows of each organization secret of one kind, secret by secret, in listing order. */
  function PerSecret(k: SecretKind, secrets: seq<OrgSecret>, listings: Listings): (blocks: seq<seq<Row>>)
    ensures |blocks| == |secrets|
    ensures forall j :: 0 <= j < |secrets| ==> blocks[j] == RowsOrNone(OrgSecretRows(k, secrets[j], listings))
  {
    seq(|secrets|, j requires 0 <= j < |secrets| => RowsOrNone(OrgSecretRows(k, secrets[j], listings)))
  }

  /**
   The rows of every organization secret of one kind: each secret's rows,
   secret after secret in listing order; the first error ends the report.
   */
  function OrgBlock(k: SecretKind, secrets: seq<OrgSecret>, listings: Listings): (r: Result<seq<Row>, ReportError>)
    ensures r.Success? ==> r.value == Flatten(PerSecret(k, secrets, listings))
    ensures r.Success? ==> forall i :: 0 <= i < |r.value| ==>
      |r.value[i]| == |Header| && r.value[i][0] == Text("Organization") && r.value[i][1] == Text(KindName(k))
    ensures r.Success? <==> forall j :: 0 <= j < |secrets| ==> OrgSecretRows(k, secrets[j], listings).Success?
    ensures r.Failure? ==> exists j :: 0 <= j < |secrets| && OrgSecretRows(k, secrets[j], listings) == Failure(r.error)
  {
    if |secrets| == 0 then Success([])
    else
      match OrgSecretRows(k, secrets[0], listings)
      case Failure(e) => Failure(e)
      case Success(rows) =>
        assert forall j :: 1 <= j < |secrets| ==> secrets[j] == secrets[1..][j - 1];
        match OrgBlock(k, secrets[1..], listings)
        case Failure(e) => Failure(e)
        case Success(more) =>
          assert PerSecret(k, secrets, listings)[1..] == PerSecret(k, secrets[1..], listings);
          Success(rows + more)
  }

  /** A repository's own secrets of one kind; a failed listing contributes nothing. */
  function RepoKindRows(k: SecretKind, repo: RepoInfo, listings: Listings): (rows: seq<Row>)
    ensures listings.repoSecrets(k, repo.name).None? ==> rows == []
    ensures listings.repoSecrets(k, repo.name).Some? ==> |rows| == |listings.repoSecrets(k, repo.name).value|
    ensures forall i :: 0 <= i < |rows| ==>
      rows[i] == SecretRow("Repository", k, listings.repoSecrets(k, repo.name).value[i], "repo",
                           repo.name, Number(repo.databaseId))
  {
    match listings.repoSecrets(k, repo.name)
    case None => []
    case Some(names) =>
      seq(|names|, i requires 0 <= i < |names| =>
        SecretRow("Repository", k, names[i], "repo", repo.name, Number(repo.databaseId)))
  }

  predicate RepoLevelRow(row: Row)
  {
    |row| == |Header| && row[0] == Text("Repository") && row[3] == Text("repo")
  }

  /** A repository's rows: its Action, then Dependabot, then Codespaces secrets. */
  function RepoRows(repo: RepoInfo, listings: Listings): seq<Row>
  {
    RepoKindRows(Action, repo, listings) + RepoKindRows(Dependabot, repo, listings)
    + RepoKindRows(Codespaces, repo, listings)
  }

  function PerRepo(repos: seq<RepoInfo>, listings: Listings): (blocks: seq<seq<Row>>)
    ensures |blocks| == |repos|
    ensures forall i :: 0 <= i < |repos| ==> blocks[i] == RepoRows(repos[i], listings)
  {
    seq(|repos|, i requires 0 <= i < |repos| => RepoRows(repos[i], listings))
  }

  /** Repository after repository, in listing order, each with its Action, Dependabot, then Codespaces secrets. */
  function RepoBlock(repos: seq<RepoInfo>, listings: Listings): (rows: seq<Row>)
    ensures rows == Flatten(PerRepo(repos, listings))
    ensures forall i :: 0 <= i < |rows| ==> RepoLevelRow(rows[i])
  {
    if |repos| == 0 then []
    else
      assert PerRepo(repos, listings)[1..] == PerRepo(repos[1..], listings);
      RepoRows(repos[0], listings) + RepoBlock(repos[1..], listings)
  }

  /** Where a row sits in the report: organization blocks by kind, then all repository rows. */
  function Rank(row: Row): nat
  {
    if |row| >= 2 && row[0] == Text("Organization") then
      (if row[1] == Text("Action") then 0 else if row[1] == Text("Dependabot") then 1 else 2)
    else 3
  }

  predicate RankOrdered(rows: seq<Row>)
  {
    forall i, j :: 0 <= i < j < |rows| ==> Rank(rows[i]) <= Rank(rows[j])
  }

  predicate HasPrivate(listings: Listings, k: SecretKind)
  {
    exists j :: 0 <= j < |listings.orgSecrets(k)| && listings.orgSecrets(k)[j].visibility == "private"
  }

  /** `org_repo_secrets_report`: the rows written below the header. */
  function Report(listings: Listings): (r: Result<seq<Row>, ReportError>)
    ensures r.Success? ==> forall i :: 0 <= i < |r.value| ==> |r.value[i]| == |Header|
    ensures r.Success? ==> RankOrdered(r.value)
    ensures r.Success? ==> r.value == Flatten(PerSecret(Action, listings.orgSecrets(Action), listings))
                                      + Flatten(PerSecret(Dependabot, listings.orgSecrets(Dependabot), listings))
                                      + Flatten(PerSecret(Codespaces, listings.orgSecrets(Codespaces), listings))
                                      + Flatten(PerRepo(listings.repos, listings))
    ensures r.Failure? <==> |listings.repos| == 0 && (HasPrivate(listings, Action) ||
                              HasPrivate(listings, Dependabot) || HasPrivate(listings, Codespaces))
  {
    var action := OrgBlock(Action, listings.orgSecrets(Action), listings);
    var dependabot := OrgBlock(Dependabot, listings.orgSecrets(Dependabot), listings);
    var codespaces := OrgBlock(Codespaces, listings.orgSecrets(Codespaces), listings);
    if action.Failure? then action
    else if dependabot.Failure? then dependabot
    else if codespaces.Failure? then codespaces
    else
      var repoRows := RepoBlock(listings.repos, listings);
      var rows := action.value + dependabot.value + codespaces.value + repoRows;
      ReportIsRankOrdered(action.value, dependabot.value, codespaces.value, repoRows);
      Success(rows)
  }

  lemma ReportIsRankOrdered(a: seq<Row>, d: seq<Row>, c: seq<Row>, repo: seq<Row>)
    requires forall i :: 0 <= i < |a| ==> |a[i]| == |Header| && a[i][0] == Text("Organization") && a[i][1] == Text("Action")
    requires forall i :: 0 <= i < |d| ==> |d[i]| == |Header| && d[i][0] == Text("Organization") && d[i][1] == Text("Dependabot")
    requires forall i :: 0 <= i < |c| ==> |c[i]| == |Header| && c[i][0] == Text("Organization") && c[i][1] == Text("Codespaces")
    requires forall i :: 0 <= i < |repo| ==> RepoLevelRow(repo[i])
    ensures RankOrdered(a + d + c + repo)
    ensures forall i :: 0 <= i < |a + d + c + repo| ==> |(a + d + c + repo)[i]| == |Header|
  {
    var rows := a + d + c + repo;
    forall i | 0 <= i < |rows|
      ensures Rank(rows[i]) == (if i < |a| then 0 else if i < |a| + |d| then 1 else if i < |a| + |d| + |c| then 2 else 3)
      ensures |rows[i]| == |Header|
    {
      if i < |a| { assert rows[i] == a[i]; }
      else if i < |a| + |d| { assert rows[i] == d[i - |a|]; }
      else if i < |a| + |d| + |c| { assert rows[i] == c[i - |a| - |d|]; }
      else { assert rows[i] == repo[i - |a| - |d| - |c|]; }
    }
  }

  /** A `selected` Dependabot secret lists the repositories the Actions lookup returns for its name. */
  lemma DependabotSelectedUsesActionsLookup(s: OrgSecret, listings: Listings)
    requires s.visibility == "selected"
    ensures var r := OrgSecretRows(Dependabot, s, listings);
            var scoped := listings.selected(Action, s.name);
            && r.Success? && |r.value| == |scoped|
            && forall i :: 0 <= i < |scoped| ==>
                 r.value[i] == SecretRow("Organization", Dependabot, s.name, "selected", scoped[i].name, Number(scoped[i].id))
  {
  }

  /**
   A `private` secret's rows depend on the repository list only through its
   last entry: two listings that agree on the last repository give the same rows.
   */
  lemma PrivateJudgedOnLastRepo(k: SecretKind, s: OrgSecret, l1: Listings, l2: Listings)
    requires s.visibility == "private"
    requires |l1.repos| > 0 && |l2.repos| > 0
    requires l1.repos[|l1.repos| - 1] == l2.repos[|l2.repos| - 1]
    ensures OrgSecretRows(k, s, l1) == OrgSecretRows(k, s, l2)
  {
  }

  /** The `private` filter: PRIVATE/INTERNAL pass for Actions, PUBLIC/INTERNAL for the other kinds. */
  lemma PrivateFilterByKind(k: SecretKind)
    ensures PrivateFilter(k, "INTERNAL")
    ensures PrivateFilter(k, "PRIVATE") <==> k == Action
    ensures PrivateFilter(k, "PUBLIC") <==> k != Action
  {
  }
}

=== FILE: text.dfy ===
/**
 String operations the scripts rely on: Python's `str.replace(c, "")`,
 `str.split(";")`, `str(n)`, `int(s)` and the substring test `p in s`,
 over `string` (= `seq<char>`). `Join` is the inverse of `Split` that the
 round-trip lemmas are stated with.
 */
module Text {
  import opened Wrappers

  /** Number of occurrences of `c` in `s`. */
  function Count(s: string, c: char): nat
  {
    if |s| == 0 then 0 else (if s[0] == c then 1 else 0) + Count(s[1..], c)
  }

  /** `s` with every occurrence of `c` deleted, the other characters kept in order. */
  function RemoveAll(s: string, c: char): (r: string)
    ensures c !in r
    ensures |r| == |s| - Count(s, c)
    ensures forall i :: 0 <= i < |r| ==> r[i] in s
  {
    if |s| == 0 then ""
    else if s[0] == c then RemoveAll(s[1..], c)
    else [s[0]] + RemoveAll(s[1..], c)
  }

  /** A string without `c` is left untouched. */
  lemma {:induction false} RemoveAllIdentity(s: string, c: char)
    requires c !in s
    ensures RemoveAll(s, c) == s
  {
    if |s| > 0 {
      assert c !in s[1..];
      RemoveAllIdentity(s[1..], c);
    }
  }

  /** Removing distributes over concatenation, so the relative order of kept characters is preserved. */
  lemma {:induction false} RemoveAllAppend(a: string, b: string, c: char)
    ensures RemoveAll(a + b, c) == RemoveAll(a, c) + RemoveAll(b, c)
  {
    if |a| == 0 {
      assert a + b == b;
    } else {
      assert (a + b)[1..] == a[1..] + b;
      RemoveAllAppend(a[1..], b, c);
    }
  }

  /** Removing twice is the same as removing once. */
  lemma RemoveAllIdempotent(s: string, c: char)
    ensures RemoveAll(RemoveAll(s, c), c) == RemoveAll(s, c)
  {
    RemoveAllIdentity(RemoveAll(s, c), c);
  }

  /** Python's `s.split(d)`: the maximal `d`-free pieces between delimiters, in order. */
  function Split(s: string, d: char): (r: seq<string>)
    ensures |r| == Count(s, d) + 1
    ensures forall i :: 0 <= i < |r| ==> d !in r[i]
  {
    if |s| == 0 then [""]
    else
      var rest := Split(s[1..], d);
      if s[0] == d then [""] + rest
      else [[s[0]] + rest[0]] + rest[1..]
  }

  /** Python's `d.join(ps)`. */
  function Join(ps: seq<string>, d: char): string
  {
    if |ps| == 0 then ""
    else if |ps| == 1 then ps[0]
    else ps[0] + [d] + Join(ps[1..], d)
  }

  /** Joining the pieces of a split gives back the original string. */
  lemma {:induction false} SplitThenJoin(s: string, d: char)
    ensures Join(Split(s, d), d) == s
  {
    if |s| > 0 {
      var rest := Split(s[1..], d);
      SplitThenJoin(s[1..], d);
      if s[0] == d {
        assert ([""] + rest)[1..] == rest;
        assert s == [d] + s[1..];
      } else if |rest| == 1 {
        assert s == [s[0]] + s[1..];
      } else {
        var ps := [[s[0]] + rest[0]] + rest[1..];
        assert ps[1..] == rest[1..];
        assert Join(rest, d) == rest[0] + [d] + Join(rest[1..], d);
        assert s == [s[0]] + s[1..];
      }
    }
  }

  /** A string without the delimiter is one piece. */
  lemma {:induction false} SplitWithoutDelimiter(s: string, d: char)
    requires d !in s
    ensures Split(s, d) == [s]
  {
    if |s| > 0 {
      assert d !in s[1..];
      SplitWithoutDelimiter(s[1..], d);
      assert s == [s[0]] + s[1..];
    }
  }

  /** A delimiter-free prefix followed by the delimiter becomes its own first piece. */
  lemma {:induction false} SplitAfterPiece(a: string, b: string, d: char)
    requires d !in a
    ensures Split(a + [d] + b, d) == [a] + Split(b, d)
  {
    if |a| == 0 {
      assert a + [d] + b == [d] + b;
      assert ([d] + b)[1..] == b;
    } else {
      assert (a + [d] + b)[1..] == a[1..] + [d] + b;
      assert d !in a[1..];
      SplitAfterPiece(a[1..], b, d);
      assert [a[0]] + a[1..] == a;
    }
  }

  /** Splitting a join of delimiter-free pieces gives the pieces back. */
  lemma {:induction false} JoinThenSplit(ps: seq<string>, d: char)
    requires |ps| >= 1
    requires forall i :: 0 <= i < |ps| ==> d !in ps[i]
    ensures Split(Join(ps, d), d) == ps
  {
    if |ps| == 1 {
      SplitWithoutDelimiter(ps[0], d);
    } else {
      JoinThenSplit(ps[1..], d);
      SplitAfterPiece(ps[0], Join(ps[1..], d), d);
      assert [ps[0]] + ps[1..] == ps;
    }
  }

  predicate IsDigit(c: char)
  {
    '0' <= c <= '9'
  }

  predicate AllDigits(s: string)
  {
    forall i :: 0 <= i < |s| ==> IsDigit(s[i])
  }

  function DigitChar(n: nat): (c: char)
    requires n < 10
    ensures IsDigit(c)
  {
    (n + '0' as int) as char
  }

  function DigitValue(c: char): (n: nat)
    requires IsDigit(c)
    ensures n < 10
  {
    c as int - '0' as int
  }

  /** The number written by a string of decimal digits, most significant first. */
  function DigitsValue(s: string): nat
    requires AllDigits(s)
  {
    if |s| == 0 then 0 else DigitsValue(s[..|s| - 1]) * 10 + DigitValue(s[|s| - 1])
  }

  /** Python's `str(n)` for a non-negative integer: its shortest decimal spelling. */
  function NatToString(n: nat): (r: string)
    ensures |r| >= 1 && AllDigits(r)
    ensures |r| > 1 ==> r[0] != '0'
  {
    if n < 10 then [DigitChar(n)] else NatToString(n / 10) + [DigitChar(n % 10)]
  }

  /**
   Python's `int(s)` restricted to decimal digit strings: `None` stands for
   the `ValueError` that `int` raises on anything else (including "").
   */
  function ParseNat(s: string): (r: Option<nat>)
    ensures r.Some? <==> |s| > 0 && AllDigits(s)
  {
    if |s| > 0 && AllDigits(s) then Some(DigitsValue(s)) else None
  }

  /** `int(str(n)) == n`. */
  lemma {:induction false} ParseNatToString(n: nat)
    ensures ParseNat(NatToString(n)) == Some(n)
  {
    if n >= 10 {
      ParseNatToString(n / 10);
      var prefix := NatToString(n / 10);
      var s := prefix + [DigitChar(n % 10)];
      assert s[..|s| - 1] == prefix;
      assert DigitValue(s[|s| - 1]) == n % 10;
      assert NatToString(n) == s;
      assert DigitsValue(prefix) == n / 10;
      assert DigitsValue(s) == DigitsValue(prefix) * 10 + n % 10;
      assert n / 10 * 10 + n % 10 == n;
    }
  }

  /** `str` is injective on non-negative integers. */
  lemma NatToStringInjective(m: nat, n: nat)
    requires NatToString(m) == NatToString(n)
    ensures m == n
  {
    ParseNatToString(m);
    ParseNatToString(n);
  }

  /** `p` occurs in `s` starting at index `i`. */
  predicate OccursAt(s: string, p: string, i: nat)
  {
    i + |p| <= |s| && s[i..i + |p|] == p
  }

  /** Python's substring test `p in s`, as a specification. */
  predicate Contains(s: string, p: string)
  {
    exists i: nat :: i <= |s| && OccursAt(s, p, i)
  }

  /** The substring test computed by scanning `s` left to right. */
  function Occurs(s: string, p: string): (r: bool)
    ensures r <==> Contains(s, p)
    decreases |s|
  {
    if |s| < |p| then
      assert forall i: nat :: !OccursAt(s, p, i);
      false
    else if s[..|p|] == p then
      assert OccursAt(s, p, 0);
      true
    else
      var r := Occurs(s[1..], p);
      assert forall i: nat :: i + 1 + |p| <= |s| ==> (OccursAt(s[1..], p, i) <==> OccursAt(s, p, i + 1)) by {
        forall i: nat | i + 1 + |p| <= |s|
          ensures OccursAt(s[1..], p, i) <==> OccursAt(s, p, i + 1)
        {
          assert s[1..][i..i + |p|] == s[i + 1..i + 1 + |p|];
        }
      }
      if r then
        var i: nat :| OccursAt(s[1..], p, i);
        assert OccursAt(s, p, i + 1);
        true
      else
        assert forall i: nat :: OccursAt(s, p, i) ==> i > 0 && OccursAt(s[1..], p, i - 1);
        false
  }
}

=== FILE: wrappers.dfy ===
/** The optional-value and outcome types shared by every module of the model. */
module Wrappers {

  /** A value that may be missing: Python's `None` versus a present value. */
  datatype Option<+T> = None | Some(value: T)

  /** The outcome of a step that may raise: a value, or the reason it raised. */
  datatype Result<+R, +E> = Success(value: R) | Failure(error: E)
}
